=== FILE: README.md ===
# Food-ordering WhatsApp bot: conversation turn and session store, in Dafny

This project models the core of a food-ordering backend:

- the WhatsApp webhook turn, a state machine over string states;
- the token-addressed session store it depends on;
- the helpers and HTTP decisions around those two.

One webhook delivery does four things. It gets or creates the customer for the
raw `From` string. It gets the customer's latest conversation, or creates one in
`greeting`. It looks up a session by the conversation id written in decimal, and
creates a session for `From` if there is none. Then it refreshes `lastMessageAt`
and takes one step of the `switch (conversation.state)`: a reply, plus the next
state or no state write.

Sessions are rows with a unique token, a phone number, free-text state, a
nullable order id and three timestamps. The repository has two session
controllers that disagree, and both are modelled:

- `PhoneSessionController` creates sessions in `active` and updates by phone. The
  routes and the webhook use this one.
- `TokenSessionController` creates sessions in `started` and updates by token.

Lookup by token, delete-by-token and the cleanup sweep are equivalent queries
in both controllers, so they are defined once in `SessionStore`. Lookup is a
`findFirst` in one controller and a `select ... get()` in the other. The sweep deletes only
the rows whose `expiresAt` is exactly `now`. The model keeps that equality, and
`SessionStore.CleanupKeepsExpiredExample` shows a session that expired an hour
earlier surviving the sweep.

Tokens are the lower-case base16 encoding (section 8 of RFC 4648) of random
bytes. The bytes are a parameter, and so is time: an integer count of
milliseconds, as in a JavaScript `Date`. Each route can be told that storage
fails, which gives its 500 branch. The menu controller is modelled for its
`available` flag: a boolean stored as the integer 1 or 0 and read back with
`Boolean(...)`.

Modules follow the source files:

- `Token`: src/utils/token.ts
- `SessionStore`: src/entities/sessions.entity.ts, plus the queries both controllers share
- `PhoneSessionController`: src/controllers/session.controller.ts
- `TokenSessionController`: src/controllers/sessionController.ts
- `SessionRoutes`: src/routes/sessions.ts
- `SessionSchema`: src/schemas/sessions.schema.ts
- `ConversationSchema`: src/schemas/conversations.schema.ts
- `Menu`: src/controllers/menu.controller.ts
- `WhatsApp`: src/controllers/whatsapp.controller.ts
- `Consistency`: facts relating the state names the controllers write to the schema enums
- `Base` and `Text`: wrappers and string helpers

Notable behaviour of the code:

- The webhook's states are `greeting`, `order_type`, `delivery_address`,
  `pickup_location`, `address_received`, `location_received`, `processing` and
  `order_confirmed`. Most of them are not in the conversation enum, whose
  members are `selecting_type`, `awaiting_address` and so on.
- The webhook reads and writes no scratch payload (`temporaryData`).
- An unknown state gets the fallback reply and keeps its value.
- The cleanup sweep compares `expiresAt` with `==`, so overdue sessions stay.
- The phone-keyed `updateSession` returns `undefined` when no row matches; it
  does not fail.
- `DELETE /:token` answers 404 for an absent token. The route is therefore not
  idempotent, although `deleteSession` is.
- `From` is stored as received, with no normalisation.

## Model

| member | source | states |
|---|---|---|
| Token.HexEncode | src/utils/token.ts:4 | the hex text of n bytes has 2n characters, all in `0-9a-f` |
| Token.DecodeEncode | src/utils/token.ts:4 | decoding the hex text of any byte string gives that byte string back |
| Token.HexEncodeInjective | src/utils/token.ts:4 | distinct byte strings give distinct tokens |
| Token.GenerateToken | src/utils/token.ts:3-5 | a token from `length` random bytes (32 by default) has 2·length characters (64 by default), is lower-case hex, and decodes back to those bytes |
| Token.GenerateExpiryTime | src/utils/token.ts:7-11 | the expiry lies exactly `hours` whole hours from `now`; it is later than `now` exactly when the duration is positive, and equals `now` exactly when it is zero |
| Token.ExpiryComposes | src/utils/token.ts:7-11 | adding a hours and then b hours is the same as adding a+b hours |
| Token.ExpiryMonotone | src/utils/token.ts:7-11 | a later `now` or a longer duration never gives an earlier expiry |
| Text.ToLower | src/controllers/whatsapp.controller.ts:77 | the result has the input's length and no `A`-`Z`; a character changes only when it is an upper-case ASCII letter or KELVIN SIGN |
| Text.ContainsToLowerIgnoresCase | src/controllers/whatsapp.controller.ts:77-86 | for a lower-case ASCII keyword, `toLowerCase().includes(w)` holds exactly when `w` occurs in the message with letter case ignored and KELVIN SIGN read as `k`, which is a definition that does not use lower-casing |
| Text.ToLowerIdempotent | src/controllers/whatsapp.controller.ts:77 | lower-casing twice is lower-casing once, and leaves no `A`-`Z` |
| Text.ContainsInContext | src/controllers/whatsapp.controller.ts:77-86 | `includes` finds a keyword however much text surrounds the piece containing it, and finds the empty string everywhere |
| Text.NatToString | src/controllers/whatsapp.controller.ts:50 | the decimal rendering of an id is non-empty, all digits, with no leading zero, and its digits denote the id |
| Text.NatToStringInjective | src/controllers/whatsapp.controller.ts:50 | distinct ids render as distinct strings |
| Text.NatToStringLength | src/controllers/whatsapp.controller.ts:50 | an id below 10^k renders in at most k digits |
| SessionStore.FindFirst | src/controllers/sessionController.ts:25-28 | a lookup finds nothing exactly when no row matches; otherwise it finds the first matching row in table order |
| SessionStore.FindTokenUnique | src/entities/sessions.entity.ts:5 | under the unique token constraint, a token lookup returns the one row carrying that token |
| SessionStore.Insert | src/entities/sessions.entity.ts:3-12 | an insert fails with a unique violation exactly when the token is taken, and then changes nothing; otherwise it appends one row with the next id, a null order id, and both timestamps at insertion time, and keeps the constraints |
| SessionStore.ApplyPatch | src/controllers/session.controller.ts:31-35 | a patched row takes the given state and order id and a new `updatedAt`; absent fields and all other columns are kept |
| SessionStore.UpdateWhere | src/controllers/session.controller.ts:30-38 | an update patches every matching row and leaves every other row as it was, in place |
| SessionStore.UpdateWhereKeepsValid | src/entities/sessions.entity.ts:4-5 | an update never breaks the token or id constraints |
| SessionStore.UpdateReturningFirst | src/controllers/session.controller.ts:37-39 | the update returns nothing exactly when no row matched; otherwise it returns the first written row |
| SessionStore.DeleteWhere | src/controllers/session.controller.ts:43 | a delete keeps exactly the rows that do not match, and changes nothing when no row matches |
| SessionStore.DeleteWhereKeepsValid | src/entities/sessions.entity.ts:4-5 | removing rows never breaks the token or id constraints |
| SessionStore.DeleteByToken | src/controllers/session.controller.ts:42-44 | `deleteSession` removes the row with that token and only it; an absent token changes nothing and is not an error |
| SessionStore.DeleteByTokenIdempotent | src/controllers/sessionController.ts:44-47 | deleting a token twice is the same as deleting it once |
| SessionStore.CleanupExpired | src/controllers/session.controller.ts:46-49 | the sweep removes exactly the rows whose `expiresAt` equals `now`, and keeps the constraints |
| SessionStore.CleanupKeepsOverdue | src/controllers/sessionController.ts:49-53 | a row whose `expiresAt` is before or after `now` survives the sweep |
| SessionStore.CleanupKeepsExpiredExample | src/controllers/session.controller.ts:47-48 | a session that expired an hour before `now` is still there after the sweep |
| PhoneSessionController.CreateSession | src/controllers/session.controller.ts:6-21 | appends one session for the phone: state `active`, a 64-digit hex token that decodes to the random bytes, expiry one hour after `now`, both timestamps `now`, the next id, and the id counter advanced; it fails, changing nothing, exactly when that token is taken |
| PhoneSessionController.GetSessionByToken | src/controllers/session.controller.ts:23-28 | returns nothing exactly when no row has the token; otherwise it returns a stored row with that token, and under the unique constraint it is the only such row |
| PhoneSessionController.UpdateSession | src/controllers/session.controller.ts:30-40 | patches every session with that phone and no other; returns the first patched one, or nothing when no session has the phone; keeps the constraints |
| TokenSessionController.CreateSession | src/controllers/sessionController.ts:7-23 | appends one session for the phone in state `started`, with a 64-digit hex token and an expiry one hour after `now` |
| TokenSessionController.UpdateSession | src/controllers/sessionController.ts:30-42 | patches only the row with that token; an unknown token changes nothing and returns nothing; a present token always returns a row, and under the constraints it is that token's row patched, and at most one row differs afterwards |
| TokenSessionController.UpdateReturnsTokenRow | src/controllers/sessionController.ts:32-41 | under the unique constraint, the row an update by token returns is the one row with the token, patched |
| SessionRoutes.PostSession | src/routes/sessions.ts:14-24 | answers 201 with a new `active` session built from the phone alone, ignoring the validated state and order id; the row is the one `createSession` builds (the next id, the minted token, expiry one hour after `now`, both timestamps `now`, no order); answers 500 with nothing written on a storage fault or token collision |
| SessionRoutes.GetSession | src/routes/sessions.ts:27-42 | answers 500 exactly on a storage fault; otherwise 404 exactly when no row has the token and 200 with that row when one has it; never writes |
| SessionRoutes.PatchSession | src/routes/sessions.ts:45-62 | answers 500 exactly on a storage fault, with no change; otherwise 404 with no change for an unknown token, and for a known token 200 after patching every session sharing the found session's phone, answering with one of them |
| SessionRoutes.DeleteSession | src/routes/sessions.ts:65-81 | answers 500 exactly on a storage fault, with no change; otherwise 404 with no change for an unknown token, and for a known token 200 after removing exactly that token's row, leaving the table that `deleteSession` leaves |
| SessionRoutes.Cleanup | src/routes/sessions.ts:84-93 | answers 200 after removing exactly the rows expiring at `now`, leaving the store the controller's sweep leaves, or 500 with no change |
| SessionRoutes.DeleteRouteNotIdempotent | src/routes/sessions.ts:69-76 | deleting a present token answers 200, and deleting it again answers 404 |
| SessionRoutes.PatchAnswersWithSiblingSession | src/routes/sessions.ts:51-57 | with two sessions on one phone, PATCH by the second token also patches the first and answers with the first |
| SessionSchema.ValidateCreate | src/schemas/sessions.schema.ts:5-9 | accepts exactly a non-empty `phone`, an enum or missing `state`, and a non-null `orderId`; a missing state becomes `started`; accepted `phone`, `state` and `orderId` are the given values; a rejection names exactly the offending members |
| SessionSchema.ValidateUpdate | src/schemas/sessions.schema.ts:11-14 | accepts exactly a missing or enum `state` and a non-null `orderId` (so `{}` passes); the patch carries exactly the given members |
| SessionSchema.ToResponse | src/schemas/sessions.schema.ts:16-25 | every stored session, whatever its state text, renders as an acceptable response, with a missing order id as `null` |
| SessionSchema.ResponseAcceptsAnyState | src/schemas/sessions.schema.ts:16-25 | a response is accepted exactly when every member is supplied and only `orderId` may be `null`; the state text is not checked |
| ConversationSchema.ValidateCreate | src/schemas/conversations.schema.ts:13-18 | accepts exactly a given `customerId`, an enum `state`, and non-null optional `temporaryData` and `cartId`; accepted values are the given ones, with absent members as none; a rejection names exactly the offending members |
| ConversationSchema.ValidateUpdate | src/schemas/conversations.schema.ts:20-24 | every member is optional; a given state must be in the enum; accepted values are the given ones, with absent members as none; a rejection names exactly the offending members |
| ConversationSchema.UpdateAcceptsEmpty | src/schemas/conversations.schema.ts:20-24 | the empty update is accepted and changes nothing |
| Consistency.SessionEnumHasSixMembers | src/schemas/sessions.schema.ts:3 | the session enum has six distinct members |
| Consistency.ConversationEnumHasSevenMembers | src/schemas/conversations.schema.ts:3-11 | the conversation enum has seven distinct members |
| Consistency.InitialSessionStates | src/controllers/session.controller.ts:15 | `active` is not in the session enum; the other controller's `started` is in it and is the schema default |
| Consistency.DialogueStatesOutsideEnum | src/schemas/conversations.schema.ts:3-11 | of the states the webhook writes, only `greeting` and `order_confirmed` are in the conversation enum |
| Consistency.DialogueRowsPassResponse | src/schemas/conversations.schema.ts:26-33 | a conversation row in any state, such as `order_type`, is an acceptable response |
| Consistency.ValidatedPatchKeepsEnumState | src/schemas/sessions.schema.ts:12 | a validated patch either keeps the row's state or sets an enum state |
| Menu.EncodeAvailable | src/controllers/menu.controller.ts:30 | `true` is stored as 1 and `false` as 0 |
| Menu.DecodeEncode | src/controllers/menu.controller.ts:28-55 | reading back a stored flag gives the original boolean |
| Menu.EncodeDecode | src/controllers/menu.controller.ts:98-111 | re-encoding a read flag keeps 0 and 1 and turns any other nonzero integer into 1 |
| Menu.View | src/controllers/menu.controller.ts:51-54 | a response item decodes the flag and keeps every other field |
| Menu.CreateCategory | src/controllers/menu.controller.ts:15-20 | appends one category carrying the given name, description and image, and answers 201 with it; on a table whose ids are distinct and below the counter, the new id differs from every stored one and that property is kept |
| Menu.CreateItem | src/controllers/menu.controller.ts:23-34 | appends one row with the flag encoded as 1 or 0 and the other fields as given, and answers 201 with the raw row; on a valid table the new id is fresh and validity is kept |
| Menu.FindItem | src/controllers/menu.controller.ts:40-45 | a lookup finds nothing exactly when no row has the id; a `NaN` id matches nothing |
| Menu.GetItem | src/controllers/menu.controller.ts:37-55 | answers 404 exactly when no row has the id, otherwise 200 with that row decoded |
| Menu.ListItems | src/controllers/menu.controller.ts:58-71 | answers every row in order, each flag decoded and every other field (id, category, name, description, price, image) unchanged |
| Menu.ItemsOf | src/controllers/menu.controller.ts:76-80 | a category's items are exactly the rows with its id, decoded |
| Menu.ListCategories | src/controllers/menu.controller.ts:74-90 | answers every category with exactly its items, each decoded with other fields unchanged |
| Menu.PatchRow | src/controllers/menu.controller.ts:98-101 | each field the patch carries replaces the stored one, `available` encoded as on create; every absent field, and the id, is kept |
| Menu.PatchWhere | src/controllers/menu.controller.ts:103 | the update patches the rows with the id and leaves the others as they were |
| Menu.PatchItem | src/controllers/menu.controller.ts:93-113 | answers 404 with no change when no row has the id; otherwise patches that row and answers 200 with it decoded |
| WhatsApp.Advance | src/controllers/whatsapp.controller.ts:65-161 | every branch replies with non-empty text; written states are dialogue states; no state is written exactly for an unknown state, or for `order_type` with neither keyword |
| WhatsApp.GreetingAsksOrderType | src/controllers/whatsapp.controller.ts:66-75 | from `greeting`, any message gets the welcome prompt and moves to `order_type` |
| WhatsApp.OrderTypeChoice | src/controllers/whatsapp.controller.ts:76-97 | in `order_type`: "delivery" in the lower-cased body leads to `delivery_address`; failing that, "pickup" leads to `pickup_location`; otherwise the prompt repeats and no state is written |
| WhatsApp.OrderTypeIgnoresCase | src/controllers/whatsapp.controller.ts:77-86 | "Delivery" and "PICKUP" are recognised, a body containing both words goes to delivery, and "hola" is re-prompted |
| WhatsApp.BodyIgnoredOutsideOrderType | src/controllers/whatsapp.controller.ts:99-158 | in every state but `order_type` the message text does not affect the step |
| WhatsApp.FixedTransitions | src/controllers/whatsapp.controller.ts:99-158 | `delivery_address` goes to `address_received`, `pickup_location` to `location_received`, and both of those to `processing`; `processing` and `order_confirmed` stay put |
| WhatsApp.UnknownStateFallsBack | src/controllers/whatsapp.controller.ts:159-160 | any other state gets the fallback reply and keeps its value |
| WhatsApp.RunStaysInDialogue | src/controllers/whatsapp.controller.ts:65-161 | a dialogue starting in a handled state never leaves the handled states |
| WhatsApp.TerminalStatesAbsorb | src/controllers/whatsapp.controller.ts:139-158 | `processing` and `order_confirmed` stay put under any message sequence |
| WhatsApp.OrderConfirmedUnreachable | src/controllers/whatsapp.controller.ts:65-161 | no message sequence leads into `order_confirmed` from any other state |
| WhatsApp.ProcessingAfterTwoSteps | src/controllers/whatsapp.controller.ts:99-138 | from `delivery_address` or `pickup_location`, any two messages reach `processing` |
| WhatsApp.FindCustomer | src/controllers/whatsapp.controller.ts:22-24 | finds a customer whose phone number is `From` as raw text, or nothing exactly when none has it |
| WhatsApp.LatestConversation | src/controllers/whatsapp.controller.ts:32-35 | finds a conversation of the customer with no later `lastMessageAt` among the customer's conversations, or nothing exactly when the customer has none |
| WhatsApp.EnsureCustomer | src/controllers/whatsapp.controller.ts:22-29 | reuses the customer with that phone, unchanged; otherwise appends exactly one customer with the raw `From` |
| WhatsApp.EnsureConversation | src/controllers/whatsapp.controller.ts:32-47 | reuses the customer's latest conversation, unchanged; otherwise appends one in `greeting` stamped `now` |
| WhatsApp.EnsureSession | src/controllers/whatsapp.controller.ts:50-53 | keeps the sessions when one has the conversation id as token; otherwise appends the row `createSession` builds for `From` (the next id, the minted token, state `active`, expiry one hour after `now`, both timestamps `now`, no order), failing exactly on a token collision |
| WhatsApp.WriteConversation | src/controllers/whatsapp.controller.ts:56-61 | only rows with the conversation id change: `lastMessageAt` becomes `now` and the state is set when given |
| WhatsApp.Respond | src/controllers/whatsapp.controller.ts:55-161 | replies with the step's reply; the selected row gets `lastMessageAt` set to `now` and the step's state, or keeps its state when the step writes none |
| WhatsApp.Turn | src/controllers/whatsapp.controller.ts:17-164 | a turn that answers has a non-empty reply; a turn that throws keeps the customer and conversation inserts made before the throw; the constraints are kept |
| WhatsApp.FirstMessageCreatesCustomer | src/controllers/whatsapp.controller.ts:22-29 | an unseen `From` adds exactly one customer with that phone verbatim; a known `From` leaves the customers unchanged |
| WhatsApp.NewConversationGreets | src/controllers/whatsapp.controller.ts:37-75 | a customer's first message creates a conversation and answers it from `greeting`: the welcome prompt, with `order_type` stored |
| WhatsApp.RespondWritesSelectedRow | src/controllers/whatsapp.controller.ts:56-158 | with unique conversation ids, the response writes only the selected conversation's row |
| WhatsApp.TurnTakesOneStep | src/controllers/whatsapp.controller.ts:55-161 | a turn replies with `Advance` on the state read, moves that conversation to the next state with `lastMessageAt` set to `now`, and leaves every other conversation as it was |
| WhatsApp.TurnSessionEffect | src/controllers/whatsapp.controller.ts:50-53 | with a session under the conversation id's token, a turn leaves the sessions alone; otherwise it appends the row `createSession` builds for `From` (the next id, the minted token, state `active`, expiry one hour after `now`, both timestamps `now`, no order), and it throws exactly on a token collision |
| WhatsApp.LookupByIdMisses | src/controllers/whatsapp.controller.ts:50-51 | a conversation id below 10^63 is never the token of a store whose tokens all have the minted 64-character length |
| WhatsApp.EveryTurnMintsSession | src/controllers/whatsapp.controller.ts:50-53 | while all tokens are 64 hex digits and conversation ids stay below 10^63, the id lookup never hits, so every answered turn adds one session |

## Left out

- HTTP transport: Hono routing, JSON response shaping and the zod-validator
  middleware. The middleware answers before a handler runs when a body is
  invalid. Handlers take the validated values; the validators are modelled on
  their own in `SessionSchema` and `ConversationSchema`.
- The webhook's form schema: the controller imports `incomingMessageSchema` from
  src/schemas/conversations.schema.ts, but that file does not define it. `From`
  and `Body` are taken as plain strings, and `MessageSid` is unused by the code.
- JSON numbers are modelled as integers. This covers `orderId`, `customerId`,
  `categoryId` and the timestamps. `z.number()` also accepts fractions such as
  1.5, and SQLite would store one in the integer `order_id` column as a real.
  Menu prices are `real`, which is exact, where JavaScript uses doubles.
- `.returning()` is read as giving the written rows in table order, so its first
  element is the first matching row. SQLite does not promise the order of
  RETURNING rows; this affects `SessionStore.UpdateReturningFirst` and the
  phone-keyed update when several sessions share a phone.
- Drizzle/D1 persistence. Tables are sequences in insertion order, and ids come
  from counters. Ties in the `lastMessageAt` ordering are broken by table order,
  which SQLite does not promise.
- Stored timestamps are kept as exact milliseconds. The column's storage
  granularity is not modelled.
- SessionStore.CleanupExpired: the columns store whole seconds, and the sweep
  compares `now` through the same column. The source therefore also removes a
  session whose expiry lies in the same second as `now`, up to a second before
  or after it. The model compares milliseconds, so
  `SessionStore.CleanupKeepsOverdue` keeps those sessions.
- WhatsApp.LatestConversation: with second granularity, conversations whose
  `lastMessageAt` falls in the same second tie in the source's ordering. The
  model compares milliseconds and breaks only exact ties, by table order.
- Clocks and randomness. `now` is one integer per request. The source reads the
  clock several times per request, and `setHours` works in local time, so
  daylight-saving shifts are not modelled. `randomBytes` is an input sequence of
  the requested length.
- Async/await and concurrent deliveries. Each request is one atomic step.
- Storage faults. Routes take a flag for a fault raised before any write.
  Partial failure between two queries of one route is not modelled. In the
  webhook, only the token-collision throw is modelled.
- Text.ToLower: `toLowerCase` is modelled for ASCII letters and KELVIN SIGN,
  which lower-cases to `k`; every other character is kept, one for one. Those are the only characters whose lower case lies in `a-z`, apart
  from U+0130. U+0130 lower-cases to `i` followed by U+0307. That
  U+0307 can never be part of a keyword, and no keyword ends in `i`, so this
  pair cannot complete a match. The keyword test
  therefore agrees.
- `Number.prototype.toString` for ids of 10^21 or more, which switch to exponent
  notation.
- PhoneSessionController.UpdateSession: the source accepts any insertable
  column in `data`; the model's patch carries only `state` and `orderId`, the
  two members any caller passes.
- SessionStore.DeleteWhere: states which rows remain, not that their order is kept.
- SessionStore.DeleteByToken: states which rows remain, not that their order is kept.
- SessionStore.CleanupExpired: states which rows remain, not that their order is kept.
- SessionRoutes.Cleanup: states which rows remain, not that their order is kept.
- Menu.ListCategories: states which items each category lists, not their order
  or multiplicity.
- Menu.ItemsOf: states which items a category has, not their order or multiplicity.
- SessionRoutes.PatchSession: states that the answered session shares the
  phone, not that it is the first one in table order.
  `SessionRoutes.PatchAnswersWithSiblingSession` pins down one case.
- Menu: the nested `category` object on item reads is not modelled. The relation
  declarations `with` needs are not in src/entities/menu.entity.ts.
- Menu: foreign-key checks on `categoryId`, the ORM's behaviour on an empty
  patch, the menu request schemas (URL format, positive price) and `parseInt`
  parsing are not modelled. The parsed id is an input, with `None` for `NaN`.
- Token.GenerateExpiryTime: takes whole hours; fractional durations are not
  modelled.
- Customers, locations and orders controllers. They are plain CRUD; the orders
  controller imports a schema that does not exist. The customer patch quirk
  (`lastOrderDate` set whenever `phoneNumber` is present) is not modelled.
- App wiring in src/index.ts and the global handle in src/db/index.ts.
  src/index.ts imports `ordersController`, but the orders file exports
  `orderController`.

=== FILE: base.dfy ===
/** Failure-compatible wrappers and the three-valued view of a JSON object member
    that the request validators work on. */
module Base {

  /** A value that may be missing (a row that was not found, `undefined`). */
  datatype Option<+T> = None | Some(value: T)

  /** The outcome of an operation that can throw: either a value or the error raised. */
  datatype Result<+T, +E> = Success(value: T) | Failure(error: E)

  /** A member of a decoded JSON object: missing altogether, explicitly `null`,
      or holding a value of the expected type. */
  datatype Field<+T> = Absent | Null | Present(value: T)

  /** A required member: present and acceptable. */
  predicate Required<T>(f: Field<T>, ok: T -> bool) {
    f.Present? && ok(f.value)
  }

  /** An optional member: missing, or present and acceptable (`null` is refused). */
  predicate Optional<T>(f: Field<T>, ok: T -> bool) {
    f.Absent? || (f.Present? && ok(f.value))
  }

  /** A nullable member: `null`, or present and acceptable (a missing member is refused). */
  predicate Nullable<T>(f: Field<T>, ok: T -> bool) {
    f.Null? || (f.Present? && ok(f.value))
  }

  /** The value a validator passes on for an optional member. */
  function FieldToOption<T>(f: Field<T>): Option<T> {
    if f.Present? then Some(f.value) else None
  }

  /** Any value of the member's type is acceptable. */
  predicate AnyValue<T>(x: T) {
    true
  }
}

/** The few string operations the controllers rely on. */
module Text {

  /** Lower-casing of one character, restricted to the characters whose lower-case
      form is an ASCII letter: `A`-`Z`, and KELVIN SIGN, which lower-cases to `k`. */
  function LowerChar(c: char): char {
    if 'A' <= c <= 'Z' then (c as int + 32) as char
    else if c == '\U{212A}' then 'k'
    else c
  }

  /** `s.toLowerCase()` character by character, within the scope of `LowerChar`. */
  function ToLower(s: string): (r: string)
    ensures |r| == |s|
    ensures forall i :: 0 <= i < |s| ==> r[i] == LowerChar(s[i])
    ensures forall i :: 0 <= i < |r| ==> !('A' <= r[i] <= 'Z')
    ensures forall i :: 0 <= i < |s| && r[i] != s[i] ==> 'A' <= s[i] <= 'Z' || s[i] == '\U{212A}'
  {
    seq(|s|, i requires 0 <= i < |s| => LowerChar(s[i]))
  }

  /** Lower-casing twice is lower-casing once; the result has no `A`-`Z` left. */
  lemma ToLowerIdempotent(s: string)
    ensures ToLower(ToLower(s)) == ToLower(s)
    ensures forall i :: 0 <= i < |s| ==> !('A' <= ToLower(s)[i] <= 'Z')
  {
  }

  /** `s.includes(w)`: `w` occurs as a contiguous piece of `s`. */
  predicate Contains(s: string, w: string) {
    exists i | 0 <= i <= |s| - |w| :: OccursAt(s, w, i)
  }

  /** A piece found in `s` is still found when text surrounds `s`; the empty
      string is found everywhere. */
  lemma ContainsInContext(a: string, s: string, b: string, w: string)
    ensures Contains(s, w) ==> Contains(a + s + b, w)
    ensures Contains(s, "")
  {
    assert OccursAt(s, "", 0);
    if Contains(s, w) {
      var i :| 0 <= i <= |s| - |w| && OccursAt(s, w, i);
      assert (a + s + b)[|a| + i..|a| + i + |w|] == s[i..i + |w|];
      assert OccursAt(a + s + b, w, |a| + i);
    }
  }

  /** `c` is the letter `l` in either case, with KELVIN SIGN counting as `k`;
      defined without `LowerChar`, as a reference for it. */
  predicate SameLetter(c: char, l: char) {
    c == l || ('a' <= l <= 'z' && c as int == l as int - 32) || (l == 'k' && c == '\U{212A}')
  }

  /** `w` occurs in `s` at position `i` when letter case is ignored. */
  predicate OccursIgnoringCase(s: string, w: string, i: int) {
    0 <= i <= |s| - |w| && forall j :: 0 <= j < |w| ==> SameLetter(s[i + j], w[j])
  }

  /** For a keyword of lower-case ASCII letters, `ToLower(s).includes(w)` holds
      exactly when `w` occurs in `s` ignoring case: `Delivery`, `PICKUP` and
      `\U{212A}ilo` all match their lower-case keywords. */
  lemma {:induction false} ContainsToLowerIgnoresCase(s: string, w: string)
    requires forall j :: 0 <= j < |w| ==> 'a' <= w[j] <= 'z'
    ensures Contains(ToLower(s), w) <==> exists i | 0 <= i <= |s| - |w| :: OccursIgnoringCase(s, w, i)
  {
    forall i | 0 <= i <= |s| - |w|
      ensures OccursAt(ToLower(s), w, i) <==> OccursIgnoringCase(s, w, i)
    {
      forall j | 0 <= j < |w|
        ensures ToLower(s)[i..i + |w|][j] == w[j] <==> SameLetter(s[i + j], w[j])
      {
        LowerCharSameLetter(s[i + j], w[j]);
      }
    }
  }

  /** One character: lowering it gives the lower-case letter `l` exactly when it
      is `l` in either case. */
  lemma LowerCharSameLetter(c: char, l: char)
    requires 'a' <= l <= 'z'
    ensures LowerChar(c) == l <==> SameLetter(c, l)
  {
  }

  /** `w` occurs in `s` starting at position `i`. */
  predicate OccursAt(s: string, w: string, i: int) {
    0 <= i <= |s| - |w| && s[i..i + |w|] == w
  }

  function DigitChar(d: nat): (c: char)
    requires d < 10
    ensures '0' <= c <= '9'
  {
    ('0' as int + d) as char
  }

  /** The number a string of decimal digits denotes, most significant digit first. */
  function DecimalValue(s: string): int {
    if |s| == 0 then 0 else 10 * DecimalValue(s[..|s| - 1]) + (s[|s| - 1] as int - '0' as int)
  }

  /** The decimal rendering `n.toString()` of a non-negative integer: digits only,
      no leading zero, denoting `n`. */
  function NatToString(n: nat): (r: string)
    ensures |r| >= 1
    ensures forall i :: 0 <= i < |r| ==> '0' <= r[i] <= '9'
    ensures n >= 10 ==> r[0] != '0'
    ensures DecimalValue(r) == n
  {
    if n < 10 then [DigitChar(n)]
    else
      var r := NatToString(n / 10) + [DigitChar(n % 10)];
      assert r[..|r| - 1] == NatToString(n / 10);
      r
  }

  /** Distinct ids render as distinct strings. */
  lemma NatToStringInjective(m: nat, n: nat)
    ensures NatToString(m) == NatToString(n) ==> m == n
  {
  }

  function Pow10(k: nat): (p: nat)
    ensures p >= 1
  {
    if k == 0 then 1 else 10 * Pow10(k - 1)
  }

  /** A number below `10^k` has at most `k` decimal digits. */
  lemma {:induction false} NatToStringLength(n: nat, k: nat)
    requires 1 <= k
    requires n < Pow10(k)
    ensures |NatToString(n)| <= k
  {
    if n >= 10 {
      assert n / 10 < Pow10(k - 1);
      NatToStringLength(n / 10, k - 1);
    }
  }
}

=== FILE: consistency.dfy ===
/** Facts that relate the controllers to the schemas: the state names the code
    writes against the enums the validators accept. */
module Consistency {
  import opened Base
  import SessionStore
  import SessionSchema
  import ConversationSchema
  import PhoneSessionController
  import TokenSessionController
  import WhatsApp

  /** The session enum lists six distinct names. */
  lemma SessionEnumHasSixMembers()
    ensures |SessionSchema.SessionStates| == 6
    ensures forall i, j :: 0 <= i < j < 6 ==> SessionSchema.SessionStates[i] != SessionSchema.SessionStates[j]
  {
    var e := SessionSchema.SessionStates;
    forall i, j | 0 <= i < j < 6 ensures e[i] != e[j] {
      assert |e[i]| != |e[j]| || e[i][0] != e[j][0] || (|e[i]| > 8 && e[i][8] != e[j][8]);
    }
  }

  /** The conversation enum lists seven distinct names. */
  lemma ConversationEnumHasSevenMembers()
    ensures |ConversationSchema.ConversationStates| == 7
    ensures forall i, j :: 0 <= i < j < 7 ==>
              ConversationSchema.ConversationStates[i] != ConversationSchema.ConversationStates[j]
  {
    var e := ConversationSchema.ConversationStates;
    forall i, j | 0 <= i < j < 7 ensures e[i] != e[j] {
      assert |e[i]| != |e[j]| || e[i][0] != e[j][0] || e[i][7] != e[j][7];
    }
  }

  /** The phone-keyed controller starts sessions in `active`, which the session
      enum does not list; the token-keyed one starts them in the enum's default. */
  lemma InitialSessionStates()
    ensures !SessionSchema.IsSessionState(PhoneSessionController.InitialState)
    ensures SessionSchema.IsSessionState(TokenSessionController.InitialState)
    ensures TokenSessionController.InitialState == SessionSchema.DefaultState
  {
    var e := SessionSchema.SessionStates;
    var a := PhoneSessionController.InitialState;
    forall i | 0 <= i < |e| ensures e[i] != a {
      assert |e[i]| != |a|;
    }
  }

  /** Of the states the webhook handles and writes, only `greeting` and
      `order_confirmed` belong to the conversation enum. */
  lemma DialogueStatesOutsideEnum(s: string)
    requires s in WhatsApp.DialogueStates
    ensures ConversationSchema.IsConversationState(s) <==> s == "greeting" || s == "order_confirmed"
  {
    var e := ConversationSchema.ConversationStates;
    if s != "greeting" && s != "order_confirmed" {
      forall i | 0 <= i < |e| ensures e[i] != s {
        assert e[i][0] != s[0] || |e[i]| != |s| || e[i][1] != s[1] || e[i][2] != s[2];
      }
    }
  }

  /** The response validator takes any state text, so a conversation row in any
      state the webhook writes is an acceptable response. */
  lemma DialogueRowsPassResponse(c: WhatsApp.Conversation)
    ensures ConversationSchema.IsConversationResponse(ConversationSchema.ConversationResponseInput(
              Present(c.id), Present(c.customerId), Present(c.state),
              if c.temporaryData.Some? then Present(c.temporaryData.value) else Null,
              Present(c.lastMessageAt),
              if c.cartId.Some? then Present(c.cartId.value) else Null))
  {
  }

  /** A patch that went through the update validator never writes a state outside
      the session enum. */
  lemma ValidatedPatchKeepsEnumState(input: SessionSchema.UpdateSessionInput, row: SessionStore.Session, now: SessionStore.Time)
    requires SessionSchema.ValidateUpdate(input).Success?
    ensures var p := SessionSchema.ValidateUpdate(input).value;
            var row' := SessionStore.ApplyPatch(row, p, now);
            SessionSchema.IsSessionState(row'.state) || row'.state == row.state
  {
  }
}

=== FILE: menu.dfy ===
/** src/controllers/menu.controller.ts over the tables of
    src/entities/menu.entity.ts. The `available` column of a menu item is an
    integer: requests carry a boolean, which is stored as 1 or 0, and responses
    decode the integer with JavaScript's `Boolean(...)`. Path ids are the result
    of `parseInt`, with `None` standing for `NaN`, which matches no row. */
module Menu {
  import opened Base

  datatype Category = Category(id: nat, name: string, description: Option<string>, imageUrl: Option<string>)

  /** A stored menu item; `available` is the integer column. */
  datatype ItemRow = ItemRow(
    id: nat, categoryId: int, name: string, description: Option<string>,
    price: real, imageUrl: Option<string>, available: int)

  /** A menu item as the read handlers answer it: `available` decoded. */
  datatype ItemView = ItemView(
    id: nat, categoryId: int, name: string, description: Option<string>,
    price: real, imageUrl: Option<string>, available: bool)

  /** A category with its items, as the category listing answers it. */
  datatype CategoryView = CategoryView(category: Category, items: seq<ItemView>)

  datatype MenuDb = MenuDb(categories: seq<Category>, nextCategoryId: nat, items: seq<ItemRow>, nextItemId: nat)

  /** Validated request bodies. */
  datatype CreateCategoryData = CreateCategoryData(name: string, description: Option<string>, imageUrl: Option<string>)

  datatype CreateItemData = CreateItemData(
    categoryId: int, name: string, description: Option<string>,
    price: real, imageUrl: Option<string>, available: bool)

  datatype ItemPatch = ItemPatch(
    categoryId: Option<int>, name: Option<string>, description: Option<string>,
    price: Option<real>, imageUrl: Option<string>, available: Option<bool>)

  datatype Body =
    | CategoryBody(category: Category)
    | RowBody(row: ItemRow)
    | ItemBody(item: ItemView)
    | ItemsBody(items: seq<ItemView>)
    | CategoriesBody(categories: seq<CategoryView>)
    | ErrorBody(error: string)

  datatype Response = Response(status: int, body: Body)

  /** `data.available ? 1 : 0`. */
  function EncodeAvailable(b: bool): (n: int)
    ensures n == 0 || n == 1
    ensures n != 0 <==> b
  {
    if b then 1 else 0
  }

  /** `Boolean(n)` on an integer: only zero is false. */
  function DecodeAvailable(n: int): bool {
    n != 0
  }

  /** Storing a flag and reading it back gives the flag. */
  lemma DecodeEncode(b: bool)
    ensures DecodeAvailable(EncodeAvailable(b)) == b
  {
  }

  /** Re-encoding a stored value normalises it: 0 and 1 come back unchanged, any
      other nonzero integer comes back as 1. */
  lemma EncodeDecode(n: int)
    ensures EncodeAvailable(DecodeAvailable(n)) == (if n == 0 then 0 else 1)
  {
  }

  /** `{...item, available: Boolean(item.available)}`. */
  function View(row: ItemRow): (v: ItemView)
    ensures v.id == row.id && v.categoryId == row.categoryId && v.name == row.name
    ensures v.description == row.description && v.price == row.price && v.imageUrl == row.imageUrl
    ensures v.available == (row.available != 0)
  {
    ItemView(row.id, row.categoryId, row.name, row.description, row.price, row.imageUrl,
             DecodeAvailable(row.available))
  }

  /** The integrity of the two tables: primary keys are distinct and below the
      counter that issues the next one. */
  predicate Valid(db: MenuDb) {
    && (forall i, j :: 0 <= i < j < |db.categories| ==> db.categories[i].id != db.categories[j].id)
    && (forall i :: 0 <= i < |db.categories| ==> db.categories[i].id < db.nextCategoryId)
    && (forall i, j :: 0 <= i < j < |db.items| ==> db.items[i].id != db.items[j].id)
    && (forall i :: 0 <= i < |db.items| ==> db.items[i].id < db.nextItemId)
  }

  /** `POST /categories`: stores the category under a fresh id and answers 201. */
  function CreateCategory(db: MenuDb, data: CreateCategoryData): (r: (Response, MenuDb))
    ensures r.1.items == db.items
    ensures |r.1.categories| == |db.categories| + 1 && r.1.categories[..|db.categories|] == db.categories
    ensures var c := r.1.categories[|db.categories|];
              && c.name == data.name && c.description == data.description && c.imageUrl == data.imageUrl
              && r.0 == Response(201, CategoryBody(c))
              && (Valid(db) ==> forall k :: 0 <= k < |db.categories| ==> db.categories[k].id != c.id)
    ensures Valid(db) ==> Valid(r.1)
  {
    var c := Category(db.nextCategoryId, data.name, data.description, data.imageUrl);
    (Response(201, CategoryBody(c)), db.(categories := db.categories + [c], nextCategoryId := db.nextCategoryId + 1))
  }

  /** `POST /items`: stores the item with `available` encoded as 1 or 0 and every
      other field as given, and answers 201 with the stored row (integer flag). */
  function CreateItem(db: MenuDb, data: CreateItemData): (r: (Response, MenuDb))
    ensures r.1.categories == db.categories && |r.1.items| == |db.items| + 1
    ensures r.1.items[..|db.items|] == db.items
    ensures var row := r.1.items[|db.items|];
              && row.id == db.nextItemId && row.categoryId == data.categoryId && row.name == data.name
              && row.description == data.description && row.price == data.price
              && row.imageUrl == data.imageUrl
              && (row.available == 1 <==> data.available) && (row.available == 0 <==> !data.available)
              && r.0 == Response(201, RowBody(row))
              && DecodeAvailable(row.available) == data.available
              && (Valid(db) ==> forall k :: 0 <= k < |db.items| ==> db.items[k].id != row.id)
    ensures Valid(db) ==> Valid(r.1)
  {
    var row := ItemRow(db.nextItemId, data.categoryId, data.name, data.description, data.price,
                       data.imageUrl, EncodeAvailable(data.available));
    (Response(201, RowBody(row)), db.(items := db.items + [row], nextItemId := db.nextItemId + 1))
  }

  predicate IdMatches(id: Option<int>, row: ItemRow) {
    id.Some? && row.id == id.value
  }

  /** The first row with the id, if any. */
  function FindItem(items: seq<ItemRow>, id: Option<int>): (r: Option<ItemRow>)
    ensures r.None? <==> forall i :: 0 <= i < |items| ==> !IdMatches(id, items[i])
    ensures r.Some? ==> r.value in items && IdMatches(id, r.value)
  {
    if |items| == 0 then None
    else if IdMatches(id, items[0]) then Some(items[0])
    else FindItem(items[1..], id)
  }

  /** `GET /items/:id`: 404 when no row has the id, otherwise 200 with the row and
      its flag decoded. */
  function GetItem(db: MenuDb, id: Option<int>): (r: Response)
    ensures r.status == 200 || r.status == 404
    ensures r.status == 404 <==> forall i :: 0 <= i < |db.items| ==> !IdMatches(id, db.items[i])
    ensures id.None? ==> r.status == 404
    ensures r.status == 200 ==>
              r.body.ItemBody? && exists i :: 0 <= i < |db.items| && IdMatches(id, db.items[i])
                                            && r.body.item == View(db.items[i])
  {
    match FindItem(db.items, id)
    case None => Response(404, ErrorBody("Menu item not found"))
    case Some(row) => Response(200, ItemBody(View(row)))
  }

  function ViewAll(items: seq<ItemRow>): (r: seq<ItemView>)
    ensures |r| == |items|
    ensures forall i :: 0 <= i < |items| ==> r[i] == View(items[i])
  {
    if |items| == 0 then [] else [View(items[0])] + ViewAll(items[1..])
  }

  /** `GET /items`: 200 with every row, in order, flag decoded. */
  function ListItems(db: MenuDb): (r: Response)
    ensures r.status == 200 && r.body.ItemsBody?
    ensures |r.body.items| == |db.items|
    ensures forall i :: 0 <= i < |db.items| ==> r.body.items[i] == View(db.items[i])
    ensures forall i :: 0 <= i < |db.items| ==>
              && r.body.items[i].id == db.items[i].id && r.body.items[i].categoryId == db.items[i].categoryId
              && r.body.items[i].name == db.items[i].name && r.body.items[i].description == db.items[i].description
              && r.body.items[i].price == db.items[i].price && r.body.items[i].imageUrl == db.items[i].imageUrl
              && (r.body.items[i].available <==> db.items[i].available != 0)
  {
    Response(200, ItemsBody(ViewAll(db.items)))
  }

  /** The items of one category, in table order, flags decoded. */
  function ItemsOf(items: seq<ItemRow>, categoryId: nat): (r: seq<ItemView>)
    ensures forall v :: v in r ==> v.categoryId == categoryId
    ensures forall row :: row in items && row.categoryId == categoryId ==> View(row) in r
    ensures forall v :: v in r ==> exists row :: row in items && v == View(row)
    ensures |r| <= |items|
  {
    if |items| == 0 then []
    else
      var rest := ItemsOf(items[1..], categoryId);
      assert forall row :: row in items ==> row == items[0] || row in items[1..];
      if items[0].categoryId == categoryId then [View(items[0])] + rest else rest
  }

  /** `GET /categories`: 200 with every category and its items, each item's flag
      decoded and its other fields unchanged. */
  function ListCategories(db: MenuDb): (r: Response)
    ensures r.status == 200 && r.body.CategoriesBody?
    ensures |r.body.categories| == |db.categories|
    ensures forall k :: 0 <= k < |db.categories| ==>
              && r.body.categories[k].category == db.categories[k]
              && (forall row :: row in db.items && row.categoryId == db.categories[k].id ==>
                    View(row) in r.body.categories[k].items)
              && (forall v :: v in r.body.categories[k].items ==>
                    v.categoryId == db.categories[k].id
                    && exists row :: row in db.items && v == View(row))
  {
    Response(200, CategoriesBody(seq(|db.categories|, k requires 0 <= k < |db.categories| =>
      CategoryView(db.categories[k], ItemsOf(db.items, db.categories[k].id)))))
  }

  /** The row after `set(updateData)`: the fields the patch carries replace the
      stored ones, `available` encoded as on create; absent fields are kept. */
  function PatchRow(row: ItemRow, patch: ItemPatch): (r: ItemRow)
    ensures r.id == row.id
    ensures patch.categoryId.None? ==> r.categoryId == row.categoryId
    ensures patch.categoryId.Some? ==> r.categoryId == patch.categoryId.value
    ensures patch.description.None? ==> r.description == row.description
    ensures patch.description.Some? ==> r.description == patch.description
    ensures patch.imageUrl.None? ==> r.imageUrl == row.imageUrl
    ensures patch.imageUrl.Some? ==> r.imageUrl == patch.imageUrl
    ensures patch.available.None? ==> r.available == row.available
    ensures patch.available.Some? ==> r.available == EncodeAvailable(patch.available.value)
    ensures patch.name.None? ==> r.name == row.name
    ensures patch.name.Some? ==> r.name == patch.name.value
    ensures patch.price.None? ==> r.price == row.price
    ensures patch.price.Some? ==> r.price == patch.price.value
  {
    ItemRow(
      row.id,
      if patch.categoryId.Some? then patch.categoryId.value else row.categoryId,
      if patch.name.Some? then patch.name.value else row.name,
      if patch.description.Some? then patch.description else row.description,
      if patch.price.Some? then patch.price.value else row.price,
      if patch.imageUrl.Some? then patch.imageUrl else row.imageUrl,
      if patch.available.Some? then EncodeAvailable(patch.available.value) else row.available)
  }

  function PatchWhere(items: seq<ItemRow>, id: Option<int>, patch: ItemPatch): (r: seq<ItemRow>)
    ensures |r| == |items|
    ensures forall i :: 0 <= i < |items| ==>
              r[i] == if IdMatches(id, items[i]) then PatchRow(items[i], patch) else items[i]
  {
    if |items| == 0 then []
    else
      [if IdMatches(id, items[0]) then PatchRow(items[0], patch) else items[0]]
        + PatchWhere(items[1..], id, patch)
  }

  /** `PATCH /items/:id`: updates the row with the id; 404 when there is none,
      otherwise 200 with the updated row, flag decoded. */
  function PatchItem(db: MenuDb, id: Option<int>, patch: ItemPatch): (r: (Response, MenuDb))
    ensures r.1.categories == db.categories && |r.1.items| == |db.items|
    ensures Valid(db) ==> Valid(r.1)
    ensures r.0.status == 200 || r.0.status == 404
    ensures r.0.status == 404 <==> forall i :: 0 <= i < |db.items| ==> !IdMatches(id, db.items[i])
    ensures r.0.status == 404 ==> r.1 == db
    ensures forall i :: 0 <= i < |db.items| && !IdMatches(id, db.items[i]) ==> r.1.items[i] == db.items[i]
    ensures forall i :: 0 <= i < |db.items| && IdMatches(id, db.items[i]) ==>
              && r.1.items[i] == PatchRow(db.items[i], patch)
              && (r.1.items[i].available != 0 <==>
                    if patch.available.Some? then patch.available.value else db.items[i].available != 0)
    ensures r.0.status == 200 ==>
              r.0.body.ItemBody? && exists i :: 0 <= i < |db.items| && IdMatches(id, db.items[i])
                                              && r.0.body.item == View(r.1.items[i])
  {
    var items' := PatchWhere(db.items, id, patch);
    match FindItem(items', id)
    case None =>
      assert items' == db.items;
      (Response(404, ErrorBody("Menu item not found")), db)
    case Some(row) =>
      var k :| 0 <= k < |items'| && items'[k] == row;
      (Response(200, ItemBody(View(row))), db.(items := items'))
  }
}

=== FILE: schemas.dfy ===
/** src/schemas/sessions.schema.ts: the session state enum and the request and
    response validators, as functions from a decoded JSON object to either the
    validated value or the set of member names that were refused. */
module SessionSchema {
  import opened Base
  import SessionStore

  /** The members of `sessionStateSchema`, in declaration order. */
  const SessionStates: seq<string> :=
    ["started", "menu_sent", "order_in_progress", "order_confirmed", "order_completed", "expired"]

  /** The value `createSessionSchema` supplies for a missing `state`. */
  const DefaultState: string := "started"

  predicate IsSessionState(s: string) {
    s in SessionStates
  }

  predicate NonEmpty(s: string) {
    |s| >= 1
  }

  /** The body of a create request as decoded from JSON. */
  datatype CreateSessionInput = CreateSessionInput(phone: Field<string>, state: Field<string>, orderId: Field<int>)

  /** What `createSessionSchema` produces. */
  datatype CreateSessionData = CreateSessionData(phone: string, state: string, orderId: Option<int>)

  /** The body of an update request as decoded from JSON. */
  datatype UpdateSessionInput = UpdateSessionInput(state: Field<string>, orderId: Field<int>)

  /** A session as it appears in a response body. */
  datatype SessionResponseInput = SessionResponseInput(
    id: Field<int>, token: Field<string>, phone: Field<string>, state: Field<string>,
    orderId: Field<int>, createdAt: Field<int>, updatedAt: Field<int>, expiresAt: Field<int>)

  /** `createSessionSchema`: `phone` must be a non-empty string; `state`, when given,
      must be an enum member and otherwise becomes `started`; `orderId` is optional. */
  function ValidateCreate(input: CreateSessionInput): (r: Result<CreateSessionData, set<string>>)
    ensures r.Success? <==>
              && input.phone.Present? && |input.phone.value| >= 1
              && (input.state.Absent? || (input.state.Present? && input.state.value in SessionStates))
              && !input.orderId.Null?
    ensures r.Failure? ==>
              && ("phone" in r.error <==> !(input.phone.Present? && |input.phone.value| >= 1))
              && ("state" in r.error <==> !(input.state.Absent? || (input.state.Present? && input.state.value in SessionStates)))
              && ("orderId" in r.error <==> input.orderId.Null?)
    ensures r.Success? ==> r.value.phone == input.phone.value && IsSessionState(r.value.state)
    ensures r.Success? && input.state.Absent? ==> r.value.state == "started"
    ensures r.Success? && input.state.Present? ==> r.value.state == input.state.value
    ensures r.Success? && input.orderId.Absent? ==> r.value.orderId == None
    ensures r.Success? && input.orderId.Present? ==> r.value.orderId == Some(input.orderId.value)
  {
    var issues :=
      (if Required(input.phone, NonEmpty) then {} else {"phone"})
      + (if Optional(input.state, IsSessionState) then {} else {"state"})
      + (if Optional(input.orderId, AnyValue) then {} else {"orderId"});
    if issues == {} then
      Success(CreateSessionData(
        input.phone.value,
        if input.state.Present? then input.state.value else DefaultState,
        FieldToOption(input.orderId)))
    else Failure(issues)
  }

  /** `updateSessionSchema`: both members optional; a given `state` must be an enum
      member. The result is the patch the update writes. */
  function ValidateUpdate(input: UpdateSessionInput): (r: Result<SessionStore.Patch, set<string>>)
    ensures r.Success? <==>
              && (input.state.Absent? || (input.state.Present? && input.state.value in SessionStates))
              && !input.orderId.Null?
    ensures r.Failure? ==>
              && ("state" in r.error <==> !(input.state.Absent? || (input.state.Present? && input.state.value in SessionStates)))
              && ("orderId" in r.error <==> input.orderId.Null?)
    ensures r.Success? ==>
              && (r.value.state.Some? <==> input.state.Present?)
              && (r.value.state.Some? ==> r.value.state.value == input.state.value && IsSessionState(r.value.state.value))
              && (r.value.orderId.Some? <==> input.orderId.Present?)
              && (r.value.orderId.Some? ==> r.value.orderId.value == input.orderId.value)
  {
    var issues :=
      (if Optional(input.state, IsSessionState) then {} else {"state"})
      + (if Optional(input.orderId, AnyValue) then {} else {"orderId"});
    if issues == {} then
      Success(SessionStore.Patch(FieldToOption(input.state), FieldToOption(input.orderId)))
    else Failure(issues)
  }

  /** `sessionResponseSchema`: every member required, `orderId` nullable, and
      `state` any string. */
  predicate IsSessionResponse(x: SessionResponseInput) {
    && Required(x.id, AnyValue) && Required(x.token, AnyValue) && Required(x.phone, AnyValue)
    && Required(x.state, AnyValue) && Nullable(x.orderId, AnyValue)
    && Required(x.createdAt, AnyValue) && Required(x.updatedAt, AnyValue) && Required(x.expiresAt, AnyValue)
  }

  /** A stored row as a response body; a missing `orderId` is `null`. */
  function ToResponse(row: SessionStore.Session): (x: SessionResponseInput)
    ensures IsSessionResponse(x)
    ensures x.state == Present(row.state) && x.token == Present(row.token)
    ensures x.orderId.Null? <==> row.orderId.None?
  {
    SessionResponseInput(
      Present(row.id), Present(row.token), Present(row.phone), Present(row.state),
      if row.orderId.Some? then Present(row.orderId.value) else Null,
      Present(row.createdAt), Present(row.updatedAt), Present(row.expiresAt))
  }

  /** The response validator accepts a record exactly when every member is
      supplied and only `orderId` is `null`, whatever text `state` holds. */
  lemma ResponseAcceptsAnyState(x: SessionResponseInput)
    ensures IsSessionResponse(x) <==>
              && x.id.Present? && x.token.Present? && x.phone.Present? && x.state.Present?
              && !x.orderId.Absent?
              && x.createdAt.Present? && x.updatedAt.Present? && x.expiresAt.Present?
  {
  }
}

/** src/schemas/conversations.schema.ts: the conversation state enum and the
    create, update and response validators. */
module ConversationSchema {
  import opened Base

  /** The members of `conversationStateSchema`, in declaration order. */
  const ConversationStates: seq<string> :=
    ["greeting", "selecting_type", "awaiting_address", "selecting_items",
     "confirming_order", "order_confirmed", "order_cancelled"]

  predicate IsConversationState(s: string) {
    s in ConversationStates
  }

  datatype CreateConversationInput = CreateConversationInput(
    customerId: Field<int>, state: Field<string>, temporaryData: Field<string>, cartId: Field<string>)

  datatype CreateConversationData = CreateConversationData(
    customerId: int, state: string, temporaryData: Option<string>, cartId: Option<string>)

  datatype UpdateConversationInput = UpdateConversationInput(
    state: Field<string>, temporaryData: Field<string>, cartId: Field<string>)

  datatype UpdateConversationData = UpdateConversationData(
    state: Option<string>, temporaryData: Option<string>, cartId: Option<string>)

  datatype ConversationResponseInput = ConversationResponseInput(
    id: Field<int>, customerId: Field<int>, state: Field<string>,
    temporaryData: Field<string>, lastMessageAt: Field<int>, cartId: Field<string>)

  /** `createConversationSchema`: `customerId` and an enum `state` are required;
      `temporaryData` and `cartId` are optional. */
  function ValidateCreate(input: CreateConversationInput): (r: Result<CreateConversationData, set<string>>)
    ensures r.Success? <==>
              && input.customerId.Present?
              && input.state.Present? && input.state.value in ConversationStates
              && !input.temporaryData.Null? && !input.cartId.Null?
    ensures r.Failure? ==>
              && ("customerId" in r.error <==> !input.customerId.Present?)
              && ("state" in r.error <==> !(input.state.Present? && input.state.value in ConversationStates))
              && ("temporaryData" in r.error <==> input.temporaryData.Null?)
              && ("cartId" in r.error <==> input.cartId.Null?)
    ensures r.Success? ==>
              && r.value.customerId == input.customerId.value
              && r.value.state == input.state.value
              && (input.temporaryData.Absent? ==> r.value.temporaryData == None)
              && (input.temporaryData.Present? ==> r.value.temporaryData == Some(input.temporaryData.value))
              && (input.cartId.Absent? ==> r.value.cartId == None)
              && (input.cartId.Present? ==> r.value.cartId == Some(input.cartId.value))
  {
    var issues :=
      (if Required(input.customerId, AnyValue) then {} else {"customerId"})
      + (if Required(input.state, IsConversationState) then {} else {"state"})
      + (if Optional(input.temporaryData, AnyValue) then {} else {"temporaryData"})
      + (if Optional(input.cartId, AnyValue) then {} else {"cartId"});
    if issues == {} then
      Success(CreateConversationData(
        input.customerId.value, input.state.value,
        FieldToOption(input.temporaryData), FieldToOption(input.cartId)))
    else Failure(issues)
  }

  /** `updateConversationSchema`: every member optional; a given `state` must be an
      enum member. */
  function ValidateUpdate(input: UpdateConversationInput): (r: Result<UpdateConversationData, set<string>>)
    ensures r.Success? <==>
              && (input.state.Absent? || (input.state.Present? && input.state.value in ConversationStates))
              && !input.temporaryData.Null? && !input.cartId.Null?
    ensures r.Failure? ==>
              && ("state" in r.error <==> !(input.state.Absent? || (input.state.Present? && input.state.value in ConversationStates)))
              && ("temporaryData" in r.error <==> input.temporaryData.Null?)
              && ("cartId" in r.error <==> input.cartId.Null?)
    ensures r.Success? ==>
              && (input.state.Absent? ==> r.value.state == None)
              && (input.state.Present? ==> r.value.state == Some(input.state.value))
              && (input.temporaryData.Absent? ==> r.value.temporaryData == None)
              && (input.temporaryData.Present? ==> r.value.temporaryData == Some(input.temporaryData.value))
              && (input.cartId.Absent? ==> r.value.cartId == None)
              && (input.cartId.Present? ==> r.value.cartId == Some(input.cartId.value))
  {
    var issues :=
      (if Optional(input.state, IsConversationState) then {} else {"state"})
      + (if Optional(input.temporaryData, AnyValue) then {} else {"temporaryData"})
      + (if Optional(input.cartId, AnyValue) then {} else {"cartId"});
    if issues == {} then
      Success(UpdateConversationData(
        FieldToOption(input.state), FieldToOption(input.temporaryData), FieldToOption(input.cartId)))
    else Failure(issues)
  }

  /** `conversationResponseSchema`: `temporaryData` and `cartId` nullable, the rest
      required, and `state` any string. */
  predicate IsConversationResponse(x: ConversationResponseInput) {
    && Required(x.id, AnyValue) && Required(x.customerId, AnyValue) && Required(x.state, AnyValue)
    && Nullable(x.temporaryData, AnyValue) && Required(x.lastMessageAt, AnyValue)
    && Nullable(x.cartId, AnyValue)
  }

  /** The update validator accepts the empty object, and the state is the only
      member whose value it inspects. */
  lemma UpdateAcceptsEmpty()
    ensures ValidateUpdate(UpdateConversationInput(Absent, Absent, Absent))
              == Success(UpdateConversationData(None, None, None))
  {
  }
}

=== FILE: session_controllers.dfy ===
/** src/controllers/session.controller.ts: sessions start in state `active`, and
    updates select rows by phone number. This is the variant the session routes
    and the WhatsApp webhook use. Deletion and cleanup are
    `SessionStore.DeleteByToken` and `SessionStore.CleanupExpired`. */
module PhoneSessionController {
  import opened Base
  import opened SessionStore
  import Token

  /** The state written by `createSession`. */
  const InitialState: string := "active"

  /** The row `createSession(phone)` writes at `now` into a table whose next id
      is `id`: the token minted from `random`, state `active`, no order, an
      expiry one hour after `now`, and both timestamps `now`. */
  predicate IsCreatedRow(row: Session, id: nat, phone: string, random: seq<Token.byte>, now: Time)
    requires |random| == Token.DefaultLength
  {
    && row.id == id && row.token == Token.GenerateToken(random) && row.phone == phone
    && row.state == InitialState && row.orderId == None
    && row.expiresAt == now + Token.MillisPerHour && row.createdAt == now && row.updatedAt == now
  }

  /** `createSession(phone)`: inserts one row for `phone` in state `active`, with a
      64-digit hex token minted from `random` and an expiry one hour after `now`.
      The insert fails, changing nothing, if the token is already taken. */
  function CreateSession(s: Store, phone: string, random: seq<Token.byte>, now: Time)
    : (r: Result<(Store, Session), DbError>)
    requires |random| == Token.DefaultLength
    ensures r.Success? <==> !HasToken(s.rows, Token.GenerateToken(random))
    ensures r.Success? ==>
              var (s', row) := r.value;
              && s'.rows == s.rows + [row]
              && row.phone == phone && row.state == "active" && row.orderId == None
              && |row.token| == 64 && Token.IsHexString(row.token)
              && Token.HexDecode(row.token) == Some(random)
              && row.expiresAt == now + Token.MillisPerHour && row.expiresAt > now
              && row.createdAt == now && row.updatedAt == now
    ensures r.Success? ==> IsCreatedRow(r.value.1, s.nextId, phone, random, now) && r.value.0.nextId == s.nextId + 1
    ensures r.Success? && Valid(s) ==> Valid(r.value.0)
  {
    Insert(s, Token.GenerateToken(random), phone, InitialState, Token.GenerateExpiryTime(now), now)
  }

  /** `getSessionByToken(token)`: the row carrying the token, or nothing. */
  function GetSessionByToken(s: Store, token: string): (r: Option<Session>)
    ensures r.None? <==> !HasToken(s.rows, token)
    ensures r.Some? ==> r.value in s.rows && r.value.token == token
    ensures Valid(s) ==> forall i :: 0 <= i < |s.rows| && s.rows[i].token == token ==> r == Some(s.rows[i])
  {
    var r := FindFirst(s.rows, TokenIs(token));
    assert Valid(s) ==> forall i :: 0 <= i < |s.rows| && s.rows[i].token == token ==> r == Some(s.rows[i]) by {
      if Valid(s) {
        forall i | 0 <= i < |s.rows| && s.rows[i].token == token ensures r == Some(s.rows[i]) {
          FindTokenUnique(s.rows, i);
        }
      }
    }
    r
  }

  /** `updateSession(phone, data)`: every row for `phone` takes the patch and a new
      `updatedAt`; rows for other phones are untouched; the answer is the first
      row written, or nothing when no row has the phone. */
  function UpdateSession(s: Store, phone: string, patch: Patch, now: Time): (r: (Store, Option<Session>))
    ensures |r.0.rows| == |s.rows| && r.0.nextId == s.nextId
    ensures forall i :: 0 <= i < |s.rows| && s.rows[i].phone == phone ==> r.0.rows[i] == ApplyPatch(s.rows[i], patch, now)
    ensures forall i :: 0 <= i < |s.rows| && s.rows[i].phone != phone ==> r.0.rows[i] == s.rows[i]
    ensures r.1.None? <==> forall i :: 0 <= i < |s.rows| ==> s.rows[i].phone != phone
    ensures r.1.Some? ==> exists i :: 0 <= i < |s.rows| && s.rows[i].phone == phone && r.1.value == r.0.rows[i]
                                     && forall j :: 0 <= j < i ==> s.rows[j].phone != phone
    ensures Valid(s) ==> Valid(r.0)
  {
    if Valid(s) then UpdateWhereKeepsValid(s, PhoneIs(phone), patch, now); UpdateReturningFirst(s, PhoneIs(phone), patch, now)
    else UpdateReturningFirst(s, PhoneIs(phone), patch, now)
  }
}

/** src/controllers/sessionController.ts: sessions start in state `started`, and
    updates select the row by token. Deletion and cleanup are the same statements
    as in the other controller (`SessionStore.DeleteByToken`,
    `SessionStore.CleanupExpired`). */
module TokenSessionController {
  import opened Base
  import opened SessionStore
  import Token

  /** The state written by `createSession`. */
  const InitialState: string := "started"

  /** `createSession(phone)`: inserts one row for `phone` in state `started`, with a
      64-digit hex token minted from `random` and an expiry one hour after `now`. */
  function CreateSession(s: Store, phone: string, random: seq<Token.byte>, now: Time)
    : (r: Result<(Store, Session), DbError>)
    requires |random| == Token.DefaultLength
    ensures r.Success? <==> !HasToken(s.rows, Token.GenerateToken(random))
    ensures r.Success? ==>
              var (s', row) := r.value;
              && s'.rows == s.rows + [row]
              && row.phone == phone && row.state == "started" && row.orderId == None
              && |row.token| == 64 && Token.IsHexString(row.token)
              && Token.HexDecode(row.token) == Some(random)
              && row.expiresAt == now + Token.MillisPerHour && row.expiresAt > now
              && row.createdAt == now && row.updatedAt == now
    ensures r.Success? && Valid(s) ==> Valid(r.value.0)
  {
    Insert(s, Token.GenerateToken(random), phone, InitialState, Token.GenerateExpiryTime(now), now)
  }

  /** `updateSession(token, data)`: only the row with that token takes the patch
      and a new `updatedAt`; with an unknown token nothing changes and the answer
      is nothing. */
  function UpdateSession(s: Store, token: string, patch: Patch, now: Time): (r: (Store, Option<Session>))
    ensures |r.0.rows| == |s.rows| && r.0.nextId == s.nextId
    ensures forall i :: 0 <= i < |s.rows| && s.rows[i].token == token ==> r.0.rows[i] == ApplyPatch(s.rows[i], patch, now)
    ensures forall i :: 0 <= i < |s.rows| && s.rows[i].token != token ==> r.0.rows[i] == s.rows[i]
    ensures !HasToken(s.rows, token) ==> r == (s, None)
    ensures HasToken(s.rows, token) ==> r.1.Some?
    ensures r.1.Some? ==> r.1.value.token == token && r.1.value.updatedAt == now && r.1.value in r.0.rows
    ensures Valid(s) ==> forall i :: 0 <= i < |s.rows| && s.rows[i].token == token ==>
              r.1 == Some(ApplyPatch(s.rows[i], patch, now))
    ensures Valid(s) ==> Valid(r.0)
    ensures Valid(s) ==> forall i, j :: 0 <= i < j < |s.rows| ==> r.0.rows[i] == s.rows[i] || r.0.rows[j] == s.rows[j]
  {
    var r := UpdateReturningFirst(s, TokenIs(token), patch, now);
    if !HasToken(s.rows, token) then
      assert r.0.rows == s.rows;
      r
    else
      if Valid(s) then
        UpdateWhereKeepsValid(s, TokenIs(token), patch, now);
        forall i | 0 <= i < |s.rows| && s.rows[i].token == token
          ensures r.1 == Some(ApplyPatch(s.rows[i], patch, now))
        {
          UpdateReturnsTokenRow(s, token, patch, now, i);
        }
        r
      else r
  }

  /** Under the unique constraint, the row an update by token returns is the one
      row carrying the token, patched. */
  lemma UpdateReturnsTokenRow(s: Store, token: string, patch: Patch, now: Time, i: int)
    requires Valid(s)
    requires 0 <= i < |s.rows| && s.rows[i].token == token
    ensures UpdateReturningFirst(s, TokenIs(token), patch, now).1 == Some(ApplyPatch(s.rows[i], patch, now))
  {
    var r := UpdateReturningFirst(s, TokenIs(token), patch, now);
    assert Matches(TokenIs(token), s.rows[i]);
    var k :| 0 <= k < |s.rows| && Matches(TokenIs(token), s.rows[k]) && r.1.value == r.0.rows[k];
  }
}

=== FILE: session_routes.dfy ===
/** src/routes/sessions.ts: the five session handlers as decisions over the
    table. A handler yields a status code, a body, and the table afterwards. The
    handlers call the phone-keyed controller. `storageFails` stands for the
    database throwing during the request: every handler catches it and answers
    500 without having written anything. */
module SessionRoutes {
  import opened Base
  import opened SessionStore
  import Token
  import SessionSchema
  import PhoneSessionController

  datatype Body = SessionBody(session: Session) | MessageBody(message: string) | ErrorBody(error: string)

  datatype Response = Response(status: int, body: Body)

  /** The answer and the table after the handler ran. */
  datatype Outcome = Outcome(response: Response, store: Store)

  function Fail(s: Store, message: string): (r: Outcome)
    ensures r.response.status == 500 && r.response.body.ErrorBody? && r.store == s
  {
    Outcome(Response(500, ErrorBody(message)), s)
  }

  /** `POST /`: creates a session from `phone` alone and answers 201 with it. The
      validated `state` and `orderId` are not passed on. A token collision or a
      storage fault answers 500 and writes nothing. */
  function PostSession(s: Store, data: SessionSchema.CreateSessionData, random: seq<Token.byte>, now: Time, storageFails: bool)
    : (r: Outcome)
    requires |random| == Token.DefaultLength
    ensures r.response.status == 201 || r.response.status == 500
    ensures r.response.status == 201 <==> !storageFails && !HasToken(s.rows, Token.GenerateToken(random))
    ensures r.response.status == 500 ==> r.store == s && r.response.body.ErrorBody?
    ensures r.response.status == 201 ==>
              && r.response.body.SessionBody?
              && r.store.rows == s.rows + [r.response.body.session]
              && r.response.body.session.phone == data.phone
              && r.response.body.session.state == "active"
              && r.response.body.session.orderId == None
    ensures r.response.status == 201 ==>
              && r.response.body.SessionBody?
              && PhoneSessionController.IsCreatedRow(r.response.body.session, s.nextId, data.phone, random, now)
              && r.store.nextId == s.nextId + 1
              && PhoneSessionController.CreateSession(s, data.phone, random, now) == Success((r.store, r.response.body.session))
    ensures Valid(s) ==> Valid(r.store)
  {
    if storageFails then Fail(s, "Failed to create session")
    else match PhoneSessionController.CreateSession(s, data.phone, random, now)
      case Success((s', row)) => Outcome(Response(201, SessionBody(row)), s')
      case Failure(_) => Fail(s, "Failed to create session")
  }

  /** `GET /:token`: 404 when no row has the token, otherwise 200 with that row. */
  function GetSession(s: Store, token: string, storageFails: bool): (r: Outcome)
    ensures r.store == s
    ensures r.response.status == 500 <==> storageFails
    ensures !storageFails ==> (r.response.status == 404 <==> !HasToken(s.rows, token))
    ensures !storageFails && HasToken(s.rows, token) ==> r.response.status == 200
    ensures r.response.status == 200 ==>
              r.response.body.SessionBody? && r.response.body.session in s.rows
              && r.response.body.session.token == token
    ensures r.response.status in {200, 404, 500}
  {
    if storageFails then Fail(s, "Failed to get session")
    else match PhoneSessionController.GetSessionByToken(s, token)
      case None => Outcome(Response(404, ErrorBody("Session not found")), s)
      case Some(row) => Outcome(Response(200, SessionBody(row)), s)
  }

  /** `PATCH /:token`: 404 and no change for an unknown token; otherwise the update
      is applied by the PHONE of the session found, so every session sharing that
      phone is patched, and the answer is the first of them in table order. */
  function PatchSession(s: Store, token: string, patch: Patch, now: Time, storageFails: bool): (r: Outcome)
    ensures r.response.status in {200, 404, 500}
    ensures r.response.status == 500 <==> storageFails
    ensures !storageFails ==> (r.response.status == 404 <==> !HasToken(s.rows, token))
    ensures !storageFails && HasToken(s.rows, token) ==> r.response.status == 200
    ensures r.response.status != 200 ==> r.store == s
    ensures r.response.status == 200 ==>
              && |r.store.rows| == |s.rows|
              && exists i :: 0 <= i < |s.rows| && s.rows[i].token == token
                   && r.response.body.SessionBody?
                   && r.response.body.session.phone == s.rows[i].phone
                   && r.response.body.session in r.store.rows
                   && forall j :: 0 <= j < |s.rows| ==>
                        r.store.rows[j] == if s.rows[j].phone == s.rows[i].phone
                                           then ApplyPatch(s.rows[j], patch, now) else s.rows[j]
    ensures Valid(s) ==> Valid(r.store)
  {
    if storageFails then Fail(s, "Failed to update session")
    else match PhoneSessionController.GetSessionByToken(s, token)
      case None => Outcome(Response(404, ErrorBody("Session not found")), s)
      case Some(found) =>
        var (s', updated) := PhoneSessionController.UpdateSession(s, found.phone, patch, now);
        assert updated.Some? && updated.value in s'.rows by {
          var i :| 0 <= i < |s.rows| && s.rows[i] == found;
          var k :| 0 <= k < |s.rows| && s.rows[k].phone == found.phone && updated.value == s'.rows[k];
        }
        Outcome(Response(200, SessionBody(updated.value)), s')
  }

  /** `DELETE /:token`: 404 and no change for an unknown token; otherwise the row
      is removed and the answer is 200. */
  function DeleteSession(s: Store, token: string, storageFails: bool): (r: Outcome)
    ensures r.response.status in {200, 404, 500}
    ensures r.response.status == 500 <==> storageFails
    ensures !storageFails ==> (r.response.status == 404 <==> !HasToken(s.rows, token))
    ensures !storageFails && HasToken(s.rows, token) ==> r.response.status == 200
    ensures r.response.status != 200 ==> r.store == s
    ensures r.response.status == 200 ==> r.response.body.MessageBody?
    ensures r.response.status == 200 ==> forall x :: x in r.store.rows <==> x in s.rows && x.token != token
    ensures r.response.status == 200 ==> r.store == DeleteByToken(s, token)
    ensures Valid(s) ==> Valid(r.store)
  {
    if storageFails then Fail(s, "Failed to delete session")
    else match PhoneSessionController.GetSessionByToken(s, token)
      case None => Outcome(Response(404, ErrorBody("Session not found")), s)
      case Some(_) => Outcome(Response(200, MessageBody("Session deleted successfully")), DeleteByToken(s, token))
  }

  /** `POST /cleanup`: runs the sweep and answers 200. */
  function Cleanup(s: Store, now: Time, storageFails: bool): (r: Outcome)
    ensures r.response.status in {200, 500}
    ensures r.response.status == 200 <==> !storageFails
    ensures r.response.status == 500 ==> r.store == s
    ensures r.response.status == 200 ==> forall x :: x in r.store.rows <==> x in s.rows && x.expiresAt != now
    ensures r.response.status == 200 ==> r.store == CleanupExpired(s, now)
    ensures Valid(s) ==> Valid(r.store)
  {
    if storageFails then Fail(s, "Failed to cleanup sessions")
    else Outcome(Response(200, MessageBody("Expired sessions cleaned up successfully")), CleanupExpired(s, now))
  }

  /** The controller's delete is idempotent but the route is not: deleting the same
      token a second time answers 404. */
  lemma DeleteRouteNotIdempotent(s: Store, token: string)
    requires HasToken(s.rows, token)
    ensures DeleteSession(s, token, false).response.status == 200
    ensures DeleteSession(DeleteSession(s, token, false).store, token, false).response.status == 404
  {
    var s' := DeleteSession(s, token, false).store;
    forall i | 0 <= i < |s'.rows| ensures s'.rows[i].token != token {
      assert s'.rows[i] in s'.rows;
    }
  }

  /** Two sessions for one phone: patching the second by its token also patches
      the first, and the answer is the first. */
  lemma PatchAnswersWithSiblingSession()
    ensures
      var a := Session(1, "aa", "+507000", "started", None, 0, 0, 10);
      var b := Session(2, "bb", "+507000", "started", None, 0, 0, 10);
      var r := PatchSession(Store([a, b], 3), "bb", Patch(Some("menu_sent"), None), 5, false);
      && r.response == Response(200, SessionBody(a.(state := "menu_sent", updatedAt := 5)))
      && r.store.rows == [a.(state := "menu_sent", updatedAt := 5), b.(state := "menu_sent", updatedAt := 5)]
  {
    var a := Session(1, "aa", "+507000", "started", None, 0, 0, 10);
    var b := Session(2, "bb", "+507000", "started", None, 0, 0, 10);
    var s := Store([a, b], 3);
    assert "aa" != "bb" by { assert "aa"[0] != "bb"[0]; }
    assert Valid(s);
    assert s.rows[1].token == "bb";
    assert PhoneSessionController.GetSessionByToken(s, "bb") == Some(b);
    var (s', updated) := PhoneSessionController.UpdateSession(s, b.phone, Patch(Some("menu_sent"), None), 5);
    assert s'.rows[0] == a.(state := "menu_sent", updatedAt := 5);
    assert s'.rows[1] == b.(state := "menu_sent", updatedAt := 5);
    assert s'.rows == [s'.rows[0], s'.rows[1]];
  }
}

=== FILE: session_store.dfy ===
/** The `sessions` table (src/entities/sessions.entity.ts) as an in-memory
    sequence of rows in insertion order, together with the row-level queries that
    both session controllers issue against it. */
module SessionStore {
  import opened Base
  import Token

  /** A JavaScript `Date` value, in milliseconds. */
  type Time = int

  /** One row. `token` is non-null and unique; `phone` and `state` are non-null
      free text (so `state` may hold values outside any schema enum); `orderId`
      is nullable; `expiresAt` has no default. */
  datatype Session = Session(
    id: nat,
    token: string,
    phone: string,
    state: string,
    orderId: Option<int>,
    createdAt: Time,
    updatedAt: Time,
    expiresAt: Time)

  /** The table: its rows, and the next value of the auto-incremented `id`. */
  datatype Store = Store(rows: seq<Session>, nextId: nat)

  /** The error the table raises on an insert. */
  datatype DbError = UniqueViolation(column: string)

  /** The subset of columns an update writes (besides `updatedAt`). */
  datatype Patch = Patch(state: Option<string>, orderId: Option<int>)

  /** A `where` condition on a single column. */
  datatype Key = TokenIs(token: string) | PhoneIs(phone: string) | ExpiresAtIs(at: Time)

  predicate Matches(key: Key, row: Session) {
    match key
    case TokenIs(t) => row.token == t
    case PhoneIs(p) => row.phone == p
    case ExpiresAtIs(at) => row.expiresAt == at
  }

  /** The unique constraint on `token`. */
  predicate TokensUnique(rows: seq<Session>) {
    forall i, j :: 0 <= i < j < |rows| ==> rows[i].token != rows[j].token
  }

  /** The primary key: distinct ids, all issued by the counter. */
  predicate IdsIssued(rows: seq<Session>, nextId: nat) {
    && (forall i :: 0 <= i < |rows| ==> rows[i].id < nextId)
    && (forall i, j :: 0 <= i < j < |rows| ==> rows[i].id != rows[j].id)
  }

  /** The table's integrity constraints. */
  predicate Valid(s: Store) {
    TokensUnique(s.rows) && IdsIssued(s.rows, s.nextId)
  }

  predicate HasToken(rows: seq<Session>, token: string) {
    exists i | 0 <= i < |rows| :: rows[i].token == token
  }

  /** `findFirst`/`.get()` with a `where` condition: the first row, in table order,
      that satisfies it. */
  function FindFirst(rows: seq<Session>, key: Key): (r: Option<Session>)
    ensures r.None? <==> forall i :: 0 <= i < |rows| ==> !Matches(key, rows[i])
    ensures r.Some? ==> exists i :: 0 <= i < |rows| && rows[i] == r.value && Matches(key, rows[i])
                                  && forall j :: 0 <= j < i ==> !Matches(key, rows[j])
  {
    if |rows| == 0 then None
    else if Matches(key, rows[0]) then Some(rows[0])
    else
      var r := FindFirst(rows[1..], key);
      assert r.Some? ==> exists i :: 0 < i < |rows| && rows[i] == r.value && Matches(key, rows[i])
                                    && forall j :: 0 <= j < i ==> !Matches(key, rows[j]) by {
        if r.Some? {
          var i :| 0 <= i < |rows[1..]| && rows[1..][i] == r.value && Matches(key, rows[1..][i])
                   && forall j :: 0 <= j < i ==> !Matches(key, rows[1..][j]);
          assert forall j :: 0 <= j < i + 1 ==> !Matches(key, rows[j]) by {
            forall j | 0 <= j < i + 1 ensures !Matches(key, rows[j]) {
              if j > 0 { assert rows[j] == rows[1..][j - 1]; }
            }
          }
        }
      }
      r
  }

  /** With the unique constraint in force, a token lookup finds the one row that
      carries the token. */
  lemma FindTokenUnique(rows: seq<Session>, i: int)
    requires TokensUnique(rows)
    requires 0 <= i < |rows|
    ensures FindFirst(rows, TokenIs(rows[i].token)) == Some(rows[i])
  {
    var r := FindFirst(rows, TokenIs(rows[i].token));
    var k :| 0 <= k < |rows| && rows[k] == r.value && Matches(TokenIs(rows[i].token), rows[k])
             && forall j :: 0 <= j < k ==> !Matches(TokenIs(rows[i].token), rows[j]);
  }

  /** `insert(...).values(...)`: appends a row with a fresh id and both timestamps
      at insertion time; fails, leaving the table as it was, when the token is
      already present. */
  function Insert(s: Store, token: string, phone: string, state: string, expiresAt: Time, now: Time)
    : (r: Result<(Store, Session), DbError>)
    ensures r.Success? <==> !HasToken(s.rows, token)
    ensures r.Failure? ==> r.error == UniqueViolation("token")
    ensures r.Success? ==>
              var (s', row) := r.value;
              && s'.rows == s.rows + [row]
              && row.token == token && row.phone == phone && row.state == state
              && row.orderId == None && row.expiresAt == expiresAt
              && row.createdAt == now && row.updatedAt == now
              && row.id == s.nextId && s'.nextId == s.nextId + 1
    ensures r.Success? && Valid(s) ==> Valid(r.value.0)
  {
    if HasToken(s.rows, token) then Failure(UniqueViolation("token"))
    else
      var row := Session(s.nextId, token, phone, state, None, now, now, expiresAt);
      Success((Store(s.rows + [row], s.nextId + 1), row))
  }

  /** The row after `set({...patch, updatedAt: now})`: the columns the patch names
      take its values, `updatedAt` takes `now`, every other column is kept. */
  function ApplyPatch(row: Session, patch: Patch, now: Time): (r: Session)
    ensures r.id == row.id && r.token == row.token && r.phone == row.phone
    ensures r.createdAt == row.createdAt && r.expiresAt == row.expiresAt
    ensures r.updatedAt == now
    ensures patch.state.None? ==> r.state == row.state
    ensures patch.state.Some? ==> r.state == patch.state.value
    ensures patch.orderId.None? ==> r.orderId == row.orderId
    ensures patch.orderId.Some? ==> r.orderId == patch.orderId
  {
    row.(
      state := if patch.state.Some? then patch.state.value else row.state,
      orderId := if patch.orderId.Some? then patch.orderId else row.orderId,
      updatedAt := now)
  }

  /** `update(...).set(...).where(key)`: every matching row is patched, every other
      row is left as it was, and the table keeps its order and length. */
  function UpdateWhere(rows: seq<Session>, key: Key, patch: Patch, now: Time): (r: seq<Session>)
    ensures |r| == |rows|
    ensures forall i :: 0 <= i < |rows| && Matches(key, rows[i]) ==> r[i] == ApplyPatch(rows[i], patch, now)
    ensures forall i :: 0 <= i < |rows| && !Matches(key, rows[i]) ==> r[i] == rows[i]
  {
    if |rows| == 0 then []
    else
      var head := if Matches(key, rows[0]) then ApplyPatch(rows[0], patch, now) else rows[0];
      var tail := UpdateWhere(rows[1..], key, patch, now);
      assert forall i :: 1 <= i < |rows| ==> ([head] + tail)[i] == tail[i - 1] && rows[i] == rows[1..][i - 1];
      [head] + tail
  }

  /** An update never touches `token` or `id`, so it keeps the constraints. */
  lemma UpdateWhereKeepsValid(s: Store, key: Key, patch: Patch, now: Time)
    requires Valid(s)
    ensures Valid(Store(UpdateWhere(s.rows, key, patch, now), s.nextId))
  {
    var r := UpdateWhere(s.rows, key, patch, now);
    assert forall i :: 0 <= i < |r| ==> r[i].token == s.rows[i].token && r[i].id == s.rows[i].id;
  }

  /** `.returning()[0]` after an update: the first row the update wrote, if any. */
  function UpdateReturningFirst(s: Store, key: Key, patch: Patch, now: Time): (r: (Store, Option<Session>))
    ensures r.0 == Store(UpdateWhere(s.rows, key, patch, now), s.nextId)
    ensures r.1.None? <==> forall i :: 0 <= i < |s.rows| ==> !Matches(key, s.rows[i])
    ensures r.1.Some? ==> exists i :: 0 <= i < |s.rows| && Matches(key, s.rows[i])
                                     && r.1.value == r.0.rows[i]
                                     && forall j :: 0 <= j < i ==> !Matches(key, s.rows[j])
  {
    var rows' := UpdateWhere(s.rows, key, patch, now);
    var first := FindFirst(s.rows, key);
    match first
    case None => (Store(rows', s.nextId), None)
    case Some(row) =>
      var i :| 0 <= i < |s.rows| && s.rows[i] == row && Matches(key, s.rows[i])
               && forall j :: 0 <= j < i ==> !Matches(key, s.rows[j]);
      (Store(rows', s.nextId), Some(rows'[i]))
  }

  /** `delete(...).where(key)`: the rows that do not match, in their order. */
  function DeleteWhere(rows: seq<Session>, key: Key): (r: seq<Session>)
    ensures forall x :: x in r <==> x in rows && !Matches(key, x)
    ensures |r| <= |rows|
    ensures (forall i :: 0 <= i < |rows| ==> !Matches(key, rows[i])) ==> r == rows
  {
    if |rows| == 0 then []
    else
      var tail := DeleteWhere(rows[1..], key);
      assert forall x :: x in rows <==> x == rows[0] || x in rows[1..];
      assert (forall i :: 0 <= i < |rows| ==> !Matches(key, rows[i])) ==> rows == [rows[0]] + rows[1..];
      if Matches(key, rows[0]) then tail else [rows[0]] + tail
  }

  /** Removing rows keeps the table's constraints. */
  lemma {:induction false} DeleteWhereKeepsValid(rows: seq<Session>, key: Key, nextId: nat)
    ensures TokensUnique(rows) && IdsIssued(rows, nextId) ==>
              TokensUnique(DeleteWhere(rows, key)) && IdsIssued(DeleteWhere(rows, key), nextId)
  {
    if |rows| > 0 && TokensUnique(rows) && IdsIssued(rows, nextId) {
      DeleteWhereKeepsValid(rows[1..], key, nextId);
      var tail := DeleteWhere(rows[1..], key);
      if !Matches(key, rows[0]) {
        var r := [rows[0]] + tail;
        forall i | 0 < i < |r| ensures r[0].token != r[i].token && r[0].id != r[i].id {
          assert r[i] in tail;
          assert r[i] in rows[1..];
          var k :| 0 <= k < |rows[1..]| && rows[1..][k] == r[i];
          assert rows[k + 1] == r[i];
        }
        forall i, j | 0 <= i < j < |r| ensures r[i].token != r[j].token && r[i].id != r[j].id {
          if i > 0 {
            assert r[i] == tail[i - 1] && r[j] == tail[j - 1];
          }
        }
        forall i | 0 <= i < |r| ensures r[i].id < nextId {
          if i > 0 {
            assert r[i] in rows[1..];
          }
        }
      }
    }
  }

  /** `deleteSession(token)`, the same in both controllers: removes the row with
      that token and nothing else; an absent token changes nothing. */
  function DeleteByToken(s: Store, token: string): (r: Store)
    ensures r.nextId == s.nextId
    ensures forall x :: x in r.rows <==> x in s.rows && x.token != token
    ensures !HasToken(s.rows, token) ==> r == s
    ensures Valid(s) ==> Valid(r)
  {
    DeleteWhereKeepsValid(s.rows, TokenIs(token), s.nextId);
    Store(DeleteWhere(s.rows, TokenIs(token)), s.nextId)
  }

  /** Deleting a token twice is deleting it once. */
  lemma DeleteByTokenIdempotent(s: Store, token: string)
    ensures DeleteByToken(DeleteByToken(s, token), token) == DeleteByToken(s, token)
  {
    var once := DeleteByToken(s, token);
    assert !HasToken(once.rows, token) by {
      forall i | 0 <= i < |once.rows| ensures once.rows[i].token != token {
        assert once.rows[i] in once.rows;
      }
    }
  }

  /** `cleanupExpiredSessions()`, the same in both controllers: removes the rows
      whose `expiresAt` is exactly `now`, and keeps every other row. */
  function CleanupExpired(s: Store, now: Time): (r: Store)
    ensures r.nextId == s.nextId
    ensures forall x :: x in r.rows <==> x in s.rows && x.expiresAt != now
    ensures Valid(s) ==> Valid(r)
  {
    DeleteWhereKeepsValid(s.rows, ExpiresAtIs(now), s.nextId);
    Store(DeleteWhere(s.rows, ExpiresAtIs(now)), s.nextId)
  }

  /** The sweep compares for equality: a session that expired before `now` is
      kept, and so is one that expires later. */
  lemma CleanupKeepsOverdue(s: Store, now: Time, i: int)
    requires 0 <= i < |s.rows|
    requires s.rows[i].expiresAt != now
    ensures s.rows[i] in CleanupExpired(s, now).rows
  {
  }

  /** Concretely: a session that expired an hour ago survives the sweep. */
  lemma CleanupKeepsExpiredExample()
    ensures
      var stale := Session(1, "ab", "+507000", "active", None, 0, 0, 0);
      var s := Store([stale], 2);
      CleanupExpired(s, Token.MillisPerHour).rows == [stale]
  {
    var stale := Session(1, "ab", "+507000", "active", None, 0, 0, 0);
    var r := CleanupExpired(Store([stale], 2), Token.MillisPerHour).rows;
    assert stale in r;
    assert forall x :: x in r ==> x == stale;
    assert |r| <= 1;
  }
}

=== FILE: token.dfy ===
/** Session tokens and expiry instants (src/utils/token.ts).

    A token is the lower-case base16 encoding (section 8 of RFC 4648) of a string
    of random bytes; the bytes are an input here instead of a call to the
    operating system's random source. Time is a JavaScript `Date` value: an
    integer number of milliseconds, passed in instead of read from a clock. */
module Token {
  import opened Base

  newtype byte = x: int | 0 <= x < 256

  /** Number of random bytes drawn when no length is given. */
  const DefaultLength: nat := 32

  /** Hours added to `now` when no duration is given. */
  const DefaultExpiryHours: int := 1

  const MillisPerHour: int := 3_600_000

  /** The base16 alphabet, lower-case form. */
  predicate IsHexChar(c: char) {
    ('0' <= c <= '9') || ('a' <= c <= 'f')
  }

  predicate IsHexString(s: string) {
    forall i :: 0 <= i < |s| ==> IsHexChar(s[i])
  }

  function HexDigit(d: int): (c: char)
    requires 0 <= d < 16
    ensures IsHexChar(c)
  {
    if d < 10 then ('0' as int + d) as char else ('a' as int + d - 10) as char
  }

  /** The value of a base16 digit; inverse of `HexDigit`. */
  function DigitValue(c: char): (d: int)
    requires IsHexChar(c)
    ensures 0 <= d < 16
    ensures HexDigit(d) == c
  {
    if c <= '9' then c as int - '0' as int else c as int - 'a' as int + 10
  }

  /** One byte as two digits, most significant nibble first. */
  function EncodeByte(b: byte): string {
    [HexDigit(b as int / 16), HexDigit(b as int % 16)]
  }

  /** `Buffer.toString('hex')`. */
  function HexEncode(bytes: seq<byte>): (r: string)
    ensures |r| == 2 * |bytes|
    ensures IsHexString(r)
  {
    if |bytes| == 0 then [] else EncodeByte(bytes[0]) + HexEncode(bytes[1..])
  }

  /** Reads a base16 string back into bytes; `None` for an odd length or a
      character outside the lower-case alphabet. */
  function HexDecode(s: string): (r: Option<seq<byte>>)
    ensures r.Some? ==> |s| == 2 * |r.value|
  {
    if |s| == 0 then Some([])
    else if |s| == 1 || !IsHexChar(s[0]) || !IsHexChar(s[1]) then None
    else match HexDecode(s[2..])
      case None => None
      case Some(rest) => Some([(DigitValue(s[0]) * 16 + DigitValue(s[1])) as byte] + rest)
  }

  /** Decoding undoes encoding. */
  lemma {:induction false} DecodeEncode(bytes: seq<byte>)
    ensures HexDecode(HexEncode(bytes)) == Some(bytes)
  {
    if |bytes| > 0 {
      var s := HexEncode(bytes);
      var b := bytes[0] as int;
      assert s == EncodeByte(bytes[0]) + HexEncode(bytes[1..]);
      assert s[2..] == HexEncode(bytes[1..]);
      DecodeEncode(bytes[1..]);
      assert DigitValue(s[0]) == b / 16;
      assert DigitValue(s[1]) == b % 16;
      assert [bytes[0]] + bytes[1..] == bytes;
    }
  }

  /** Distinct byte strings give distinct tokens. */
  lemma HexEncodeInjective(a: seq<byte>, b: seq<byte>)
    ensures HexEncode(a) == HexEncode(b) ==> a == b
  {
    if HexEncode(a) == HexEncode(b) {
      DecodeEncode(a);
      DecodeEncode(b);
    }
  }

  /** `generateToken(length)`: the hex encoding of `length` random bytes. */
  function GenerateToken(random: seq<byte>, length: nat := DefaultLength): (token: string)
    requires |random| == length
    ensures |token| == 2 * length
    ensures IsHexString(token)
    ensures HexDecode(token) == Some(random)
  {
    DecodeEncode(random);
    HexEncode(random)
  }

  /** `generateExpiryTime(hours)`: `hours` hours after `now`. */
  function GenerateExpiryTime(now: int, hours: int := DefaultExpiryHours): (expiresAt: int)
    ensures expiresAt > now <==> hours > 0
    ensures expiresAt == now <==> hours == 0
    ensures (expiresAt - now) % MillisPerHour == 0
    ensures (expiresAt - now) / MillisPerHour == hours
  {
    now + hours * MillisPerHour
  }

  /** Pushing an expiry forward by `a` then `b` hours is pushing it by `a + b`. */
  lemma ExpiryComposes(now: int, a: int, b: int)
    ensures GenerateExpiryTime(GenerateExpiryTime(now, a), b) == GenerateExpiryTime(now, a + b)
  {
  }

  /** A later `now` or a longer duration gives a later expiry. */
  lemma ExpiryMonotone(now: int, now': int, h: int, h': int)
    requires now <= now' && h <= h'
    ensures GenerateExpiryTime(now, h) <= GenerateExpiryTime(now', h')
  {
  }
}

=== FILE: whatsapp.dfy ===
/** src/controllers/whatsapp.controller.ts: one webhook delivery as one atomic
    step over the customers, conversations and sessions tables.

    A turn fetches or creates the customer for the raw `From` string, fetches
    the customer's most recent conversation or creates one in `greeting`, looks
    up a session whose token is the conversation id in decimal and creates a
    session for `From` when there is none, refreshes `lastMessageAt`, and then
    takes one step of the dialogue on the conversation's state as it was read. */
module WhatsApp {
  import opened Base
  import opened Text
  import opened SessionStore
  import Token
  import PhoneSessionController

  datatype Customer = Customer(id: nat, phoneNumber: string, name: Option<string>, lastOrderDate: Option<Time>)

  datatype Conversation = Conversation(
    id: nat, customerId: nat, state: string, temporaryData: Option<string>,
    lastMessageAt: Time, cartId: Option<string>)

  /** The three tables a turn touches, with the next primary key of the two that
      assign them. */
  datatype Db = Db(
    customers: seq<Customer>, nextCustomerId: nat,
    conversations: seq<Conversation>, nextConversationId: nat,
    sessions: Store)

  /** One step of the dialogue: the reply, and the state written (`None` when the
      branch writes no state). */
  datatype Step = Step(reply: string, next: Option<string>)

  /** A turn either answers with a reply, or throws (a session insert that hits
      the token constraint) after the writes made before the throw. */
  datatype TurnResult = Replied(reply: string, db: Db) | Crashed(db: Db)

  const WelcomeReply := "Welcome! Would you like delivery or pickup?"
  const AskAddressReply := "Please enter your delivery address:"
  const AskLocationReply := "Please select a pickup location:"
  const ChooseTypeReply := "Please choose either delivery or pickup."
  const DeliveryAddressReply := "Delivery address received. Processing..."
  const PickupLocationReply := "Pickup location received. Processing..."
  const AddressReceivedReply := "Address received. Processing..."
  const LocationReceivedReply := "Location received. Processing..."
  const ProcessingReply := "Processing..."
  const ThanksReply := "\U{A1}Gracias por su orden! Nos pondremos en contacto pronto con los detalles de su pedido."
  const FallbackReply := "Lo siento, no entend\U{ED}. \U{BF}Podr\U{ED}a repetir?"

  /** The states the webhook handles, which are also the states it writes. */
  const DialogueStates: set<string> :=
    {"greeting", "order_type", "delivery_address", "pickup_location",
     "address_received", "location_received", "processing", "order_confirmed"}

  predicate WantsDelivery(body: string) {
    Contains(ToLower(body), "delivery")
  }

  predicate WantsPickup(body: string) {
    Contains(ToLower(body), "pickup")
  }

  /** The `switch (conversation.state)`. */
  function Advance(state: string, body: string): (r: Step)
    ensures |r.reply| > 0
    ensures r.next.Some? ==> r.next.value in DialogueStates
    ensures r.next.None? <==>
              state !in DialogueStates || (state == "order_type" && !WantsDelivery(body) && !WantsPickup(body))
  {
    if state == "greeting" then Step(WelcomeReply, Some("order_type"))
    else if state == "order_type" then
      if WantsDelivery(body) then Step(AskAddressReply, Some("delivery_address"))
      else if WantsPickup(body) then Step(AskLocationReply, Some("pickup_location"))
      else Step(ChooseTypeReply, None)
    else if state == "delivery_address" then Step(DeliveryAddressReply, Some("address_received"))
    else if state == "pickup_location" then Step(PickupLocationReply, Some("location_received"))
    else if state == "address_received" then Step(AddressReceivedReply, Some("processing"))
    else if state == "location_received" then Step(LocationReceivedReply, Some("processing"))
    else if state == "processing" then Step(ProcessingReply, Some("processing"))
    else if state == "order_confirmed" then Step(ThanksReply, Some("order_confirmed"))
    else Step(FallbackReply, None)
  }

  /** The state after a step: the one written, or the one read. */
  function NextState(state: string, body: string): string {
    var step := Advance(state, body);
    if step.next.Some? then step.next.value else state
  }

  /** From `greeting`, any message gets the welcome prompt and moves to `order_type`. */
  lemma GreetingAsksOrderType(body: string)
    ensures Advance("greeting", body) == Step(WelcomeReply, Some("order_type"))
  {
  }

  /** In `order_type` the lower-cased message decides: "delivery" anywhere wins,
      then "pickup"; with neither the prompt repeats and no state is written. */
  lemma OrderTypeChoice(body: string)
    ensures Advance("order_type", body).next == Some("delivery_address") <==> WantsDelivery(body)
    ensures Advance("order_type", body).next == Some("pickup_location") <==> !WantsDelivery(body) && WantsPickup(body)
    ensures Advance("order_type", body).next.None? <==> !WantsDelivery(body) && !WantsPickup(body)
    ensures Advance("order_type", body).next.None? ==> Advance("order_type", body).reply == ChooseTypeReply
  {
  }

  /** Case does not matter and surrounding text does not matter. */
  lemma OrderTypeIgnoresCase()
    ensures Advance("order_type", "Delivery").next == Some("delivery_address")
    ensures Advance("order_type", "PICKUP").next == Some("pickup_location")
    ensures Advance("order_type", "pickup or delivery?").next == Some("delivery_address")
    ensures Advance("order_type", "hola").next == None
  {
    assert OccursAt(ToLower("Delivery"), "delivery", 0);
    assert OccursAt(ToLower("PICKUP"), "pickup", 0);
    assert OccursAt(ToLower("pickup or delivery?"), "delivery", 10);
    assert !WantsDelivery("hola") && !WantsPickup("hola");
  }

  /** Outside `order_type` the message text plays no part in the step. */
  lemma BodyIgnoredOutsideOrderType(state: string, body: string, body': string)
    requires state != "order_type"
    ensures Advance(state, body) == Advance(state, body')
  {
  }

  /** The fixed part of the table: each of these states moves on, or stays, the
      same way whatever the message. */
  lemma FixedTransitions(body: string)
    ensures NextState("delivery_address", body) == "address_received"
    ensures NextState("pickup_location", body) == "location_received"
    ensures NextState("address_received", body) == "processing"
    ensures NextState("location_received", body) == "processing"
    ensures NextState("processing", body) == "processing"
    ensures NextState("order_confirmed", body) == "order_confirmed"
  {
  }

  /** Any other state gets the fallback reply and is not written. */
  lemma UnknownStateFallsBack(state: string, body: string)
    requires state !in DialogueStates
    ensures Advance(state, body) == Step(FallbackReply, None)
    ensures NextState(state, body) == state
  {
  }

  /** The state after a sequence of messages. */
  function Run(state: string, bodies: seq<string>): string
    decreases |bodies|
  {
    if |bodies| == 0 then state else Run(NextState(state, bodies[0]), bodies[1..])
  }

  /** A dialogue that starts in one of the handled states never leaves them. */
  lemma {:induction false} RunStaysInDialogue(state: string, bodies: seq<string>)
    requires state in DialogueStates
    ensures Run(state, bodies) in DialogueStates
    decreases |bodies|
  {
    if |bodies| > 0 {
      RunStaysInDialogue(NextState(state, bodies[0]), bodies[1..]);
    }
  }

  /** `processing` and `order_confirmed` absorb every message. */
  lemma {:induction false} TerminalStatesAbsorb(state: string, bodies: seq<string>)
    requires state == "processing" || state == "order_confirmed"
    ensures Run(state, bodies) == state
    decreases |bodies|
  {
    if |bodies| > 0 {
      TerminalStatesAbsorb(state, bodies[1..]);
    }
  }

  /** Nothing leads into `order_confirmed`: a dialogue that starts elsewhere never
      reaches it. */
  lemma {:induction false} OrderConfirmedUnreachable(state: string, bodies: seq<string>)
    requires state != "order_confirmed"
    ensures Run(state, bodies) != "order_confirmed"
    decreases |bodies|
  {
    if |bodies| > 0 {
      OrderConfirmedUnreachable(NextState(state, bodies[0]), bodies[1..]);
    }
  }

  /** Once past `order_type`, two more messages reach `processing`. */
  lemma ProcessingAfterTwoSteps(state: string, b1: string, b2: string)
    requires state == "delivery_address" || state == "pickup_location"
    ensures Run(state, [b1, b2]) == "processing"
  {
    var mid := NextState(state, b1);
    assert mid == "address_received" || mid == "location_received";
    assert [b1, b2][1..] == [b2];
    assert Run(state, [b1, b2]) == Run(mid, [b2]);
    assert [b2][1..] == [];
    assert Run(mid, [b2]) == Run(NextState(mid, b2), []);
  }

  // ---------------------------------------------------------------- tables

  /** The first customer with the phone number, compared as raw text. */
  function FindCustomer(customers: seq<Customer>, phone: string): (r: Option<Customer>)
    ensures r.None? <==> forall i :: 0 <= i < |customers| ==> customers[i].phoneNumber != phone
    ensures r.Some? ==> r.value in customers && r.value.phoneNumber == phone
  {
    if |customers| == 0 then None
    else if customers[0].phoneNumber == phone then Some(customers[0])
    else FindCustomer(customers[1..], phone)
  }

  /** `findFirst` ordered by `lastMessageAt` descending: a conversation of the
      customer with the latest `lastMessageAt` (the earliest row among ties). */
  function LatestConversation(conversations: seq<Conversation>, customerId: nat): (r: Option<Conversation>)
    ensures r.None? <==> forall i :: 0 <= i < |conversations| ==> conversations[i].customerId != customerId
    ensures r.Some? ==> r.value in conversations && r.value.customerId == customerId
    ensures r.Some? ==> forall c :: c in conversations && c.customerId == customerId ==>
                          c.lastMessageAt <= r.value.lastMessageAt
  {
    if |conversations| == 0 then None
    else
      var rest := LatestConversation(conversations[1..], customerId);
      assert forall c :: c in conversations ==> c == conversations[0] || c in conversations[1..];
      if conversations[0].customerId != customerId then rest
      else if rest.Some? && rest.value.lastMessageAt > conversations[0].lastMessageAt then rest
      else Some(conversations[0])
  }

  /** The integrity constraints of the three tables: unique customer phone numbers
      and primary keys issued by the counters. */
  predicate ValidDb(db: Db) {
    && (forall i, j :: 0 <= i < j < |db.customers| ==>
          db.customers[i].phoneNumber != db.customers[j].phoneNumber && db.customers[i].id != db.customers[j].id)
    && (forall i :: 0 <= i < |db.customers| ==> db.customers[i].id < db.nextCustomerId)
    && (forall i, j :: 0 <= i < j < |db.conversations| ==> db.conversations[i].id != db.conversations[j].id)
    && (forall i :: 0 <= i < |db.conversations| ==> db.conversations[i].id < db.nextConversationId)
    && Valid(db.sessions)
  }

  /** Get-or-create of the customer: reuse the customer with `from` as phone
      number, or insert one with exactly `from` (no normalisation). */
  function EnsureCustomer(db: Db, from: string): (r: (Db, Customer))
    ensures r.1.phoneNumber == from && r.1 in r.0.customers
    ensures r.0.conversations == db.conversations && r.0.nextConversationId == db.nextConversationId
    ensures r.0.sessions == db.sessions
    ensures FindCustomer(db.customers, from).Some? ==> r.0 == db && r.1 == FindCustomer(db.customers, from).value
    ensures FindCustomer(db.customers, from).None? ==>
              && r.1 == Customer(db.nextCustomerId, from, None, None)
              && r.0.customers == db.customers + [r.1]
              && r.0.nextCustomerId == db.nextCustomerId + 1
    ensures ValidDb(db) ==> ValidDb(r.0)
  {
    match FindCustomer(db.customers, from)
    case Some(c) => (db, c)
    case None =>
      var c := Customer(db.nextCustomerId, from, None, None);
      (db.(customers := db.customers + [c], nextCustomerId := db.nextCustomerId + 1), c)
  }

  /** Get-or-create of the conversation: reuse the customer's latest
      conversation, or insert one in `greeting` stamped `now`. */
  function EnsureConversation(db: Db, customerId: nat, now: Time): (r: (Db, Conversation))
    ensures r.1.customerId == customerId && r.1 in r.0.conversations
    ensures r.0.customers == db.customers && r.0.nextCustomerId == db.nextCustomerId
    ensures r.0.sessions == db.sessions
    ensures LatestConversation(db.conversations, customerId).Some? ==>
              r.0 == db && r.1 == LatestConversation(db.conversations, customerId).value
    ensures LatestConversation(db.conversations, customerId).None? ==>
              && r.1 == Conversation(db.nextConversationId, customerId, "greeting", None, now, None)
              && r.0.conversations == db.conversations + [r.1]
              && r.0.nextConversationId == db.nextConversationId + 1
    ensures ValidDb(db) ==> ValidDb(r.0)
    ensures ValidDb(db) ==> r.1.id <= db.nextConversationId
  {
    match LatestConversation(db.conversations, customerId)
    case Some(c) => (db, c)
    case None =>
      var c := Conversation(db.nextConversationId, customerId, "greeting", None, now, None);
      (db.(conversations := db.conversations + [c], nextConversationId := db.nextConversationId + 1), c)
  }

  /** Get-or-create of the session: the session whose token is the conversation
      id in decimal is kept; when there is none, a session for `from` is created. */
  function EnsureSession(s: Store, conversationId: nat, from: string, random: seq<Token.byte>, now: Time)
    : (r: Result<Store, DbError>)
    requires |random| == Token.DefaultLength
    ensures HasToken(s.rows, NatToString(conversationId)) ==> r == Success(s)
    ensures !HasToken(s.rows, NatToString(conversationId)) ==>
              (r.Success? <==> !HasToken(s.rows, Token.GenerateToken(random)))
    ensures !HasToken(s.rows, NatToString(conversationId)) && r.Success? ==>
              |r.value.rows| == |s.rows| + 1 && r.value.rows[..|s.rows|] == s.rows
              && r.value.rows[|s.rows|].phone == from && r.value.rows[|s.rows|].state == "active"
              && r.value.rows[|s.rows|].token == Token.GenerateToken(random)
    ensures !HasToken(s.rows, NatToString(conversationId)) && r.Success? ==>
              && PhoneSessionController.IsCreatedRow(r.value.rows[|s.rows|], s.nextId, from, random, now)
              && r.value.nextId == s.nextId + 1
              && PhoneSessionController.CreateSession(s, from, random, now).Success?
              && r.value == PhoneSessionController.CreateSession(s, from, random, now).value.0
    ensures r.Success? && Valid(s) ==> Valid(r.value)
  {
    match PhoneSessionController.GetSessionByToken(s, NatToString(conversationId))
    case Some(_) => Success(s)
    case None =>
      match PhoneSessionController.CreateSession(s, from, random, now)
      case Success((s', _)) => Success(s')
      case Failure(e) => Failure(e)
  }

  /** An `update(conversations).set(...)` on the row with the id: `lastMessageAt`
      becomes `now`, and the state becomes `state` when one is given. */
  function WriteConversation(conversations: seq<Conversation>, id: nat, state: Option<string>, now: Time)
    : (r: seq<Conversation>)
    ensures |r| == |conversations|
    ensures forall i :: 0 <= i < |conversations| && conversations[i].id != id ==> r[i] == conversations[i]
    ensures forall i :: 0 <= i < |conversations| && conversations[i].id == id ==>
              && r[i].lastMessageAt == now
              && r[i].state == (if state.Some? then state.value else conversations[i].state)
              && r[i] == conversations[i].(lastMessageAt := now, state := r[i].state)
  {
    if |conversations| == 0 then []
    else
      var c := conversations[0];
      var c' := if c.id == id then c.(lastMessageAt := now, state := if state.Some? then state.value else c.state) else c;
      [c'] + WriteConversation(conversations[1..], id, state, now)
  }

  /** The reply step: `lastMessageAt` of the conversation's row becomes `now`, then
      the step chosen by the state read is taken and its state, if any, written. */
  function Respond(conversations: seq<Conversation>, conversation: Conversation, body: string, now: Time)
    : (r: (string, seq<Conversation>))
    ensures r.0 == Advance(conversation.state, body).reply
    ensures |r.1| == |conversations|
    ensures forall i :: 0 <= i < |conversations| ==>
              r.1[i] == if conversations[i].id != conversation.id then conversations[i]
                        else conversations[i].(lastMessageAt := now, state :=
                               var next := Advance(conversation.state, body).next;
                               if next.Some? then next.value else conversations[i].state)
  {
    var touched := WriteConversation(conversations, conversation.id, None, now);
    var step := Advance(conversation.state, body);
    (step.reply, if step.next.Some? then WriteConversation(touched, conversation.id, step.next, now) else touched)
  }

  /** One webhook delivery. */
  function Turn(db: Db, from: string, body: string, random: seq<Token.byte>, now: Time): (r: TurnResult)
    requires |random| == Token.DefaultLength
    ensures r.Replied? ==> |r.reply| > 0
    ensures r.Crashed? ==> r.db == Selected(db, from, now).0
    ensures ValidDb(db) ==> ValidDb(r.db)
  {
    var (db1, customer) := EnsureCustomer(db, from);
    var (db2, conversation) := EnsureConversation(db1, customer.id, now);
    match EnsureSession(db2.sessions, conversation.id, from, random, now)
    case Failure(_) => Crashed(db2)
    case Success(sessions') =>
      var (reply, conversations') := Respond(db2.conversations, conversation, body, now);
      if ValidDb(db) then
        SameIdsKeepValid(db2, sessions', conversations');
        Replied(reply, db2.(sessions := sessions', conversations := conversations'))
      else
        Replied(reply, db2.(sessions := sessions', conversations := conversations'))
  }

  /** Rewriting conversation rows without touching their ids, and replacing the
      session table by a valid one, keeps the constraints. */
  lemma SameIdsKeepValid(db: Db, sessions: Store, conversations: seq<Conversation>)
    requires ValidDb(db) && Valid(sessions)
    requires |conversations| == |db.conversations|
    requires forall i :: 0 <= i < |conversations| ==> conversations[i].id == db.conversations[i].id
    ensures ValidDb(db.(sessions := sessions, conversations := conversations))
  {
  }

  // ---------------------------------------------------------------- turn facts

  /** An unseen `From` adds exactly one customer, whose phone number is `From`
      verbatim; a known `From` leaves the customers as they were. */
  lemma FirstMessageCreatesCustomer(db: Db, from: string, body: string, random: seq<Token.byte>, now: Time)
    requires |random| == Token.DefaultLength
    ensures (forall i :: 0 <= i < |db.customers| ==> db.customers[i].phoneNumber != from) ==>
              Turn(db, from, body, random, now).db.customers == db.customers + [Customer(db.nextCustomerId, from, None, None)]
    ensures (exists i :: 0 <= i < |db.customers| && db.customers[i].phoneNumber == from) ==>
              Turn(db, from, body, random, now).db.customers == db.customers
  {
  }

  /** A customer's first conversation is created in `greeting` and is answered in
      the same turn from that state: the welcome prompt, and `order_type` stored. */
  lemma NewConversationGreets(db: Db, from: string, body: string, random: seq<Token.byte>, now: Time)
    requires |random| == Token.DefaultLength
    requires ValidDb(db)
    requires LatestConversation(db.conversations, EnsureCustomer(db, from).1.id).None?
    ensures var r := Turn(db, from, body, random, now);
              r.Replied? ==>
                && r.reply == WelcomeReply
                && |r.db.conversations| == |db.conversations| + 1
                && r.db.conversations[|db.conversations|]
                     == Conversation(db.nextConversationId, EnsureCustomer(db, from).1.id, "order_type", None, now, None)
  {
    var (db1, customer) := EnsureCustomer(db, from);
    var (db2, conversation) := EnsureConversation(db1, customer.id, now);
    var n := |db.conversations|;
    assert db2.conversations[n] == conversation;
    var touched := WriteConversation(db2.conversations, conversation.id, None, now);
    assert touched[n] == conversation;
    var written := WriteConversation(touched, conversation.id, Some("order_type"), now);
    assert written[n] == conversation.(state := "order_type");
  }

  /** The tables after the get-or-create steps, and the conversation selected. */
  function Selected(db: Db, from: string, now: Time): (Db, Conversation) {
    var (db1, customer) := EnsureCustomer(db, from);
    EnsureConversation(db1, customer.id, now)
  }

  /** With unique conversation ids, the only row the response writes is the
      selected conversation's. */
  lemma RespondWritesSelectedRow(conversations: seq<Conversation>, k: int, body: string, now: Time)
    requires 0 <= k < |conversations|
    requires forall i, j :: 0 <= i < j < |conversations| ==> conversations[i].id != conversations[j].id
    ensures var c := conversations[k];
            var r := Respond(conversations, c, body, now).1;
            && r[k] == c.(lastMessageAt := now, state := NextState(c.state, body))
            && forall i :: 0 <= i < |conversations| && i != k ==> r[i] == conversations[i]
  {
    var c := conversations[k];
    forall i | 0 <= i < |conversations| && i != k ensures conversations[i].id != c.id {
    }
  }

  /** A turn takes exactly one step of `Advance` on the state read: the reply is
      the step's reply, the selected conversation's row ends with `lastMessageAt`
      set to `now` and the state the step leads to, and every other conversation
      row is left as it was. */
  lemma TurnTakesOneStep(db: Db, from: string, body: string, random: seq<Token.byte>, now: Time)
    requires |random| == Token.DefaultLength
    requires ValidDb(db)
    ensures var (db2, c) := Selected(db, from, now);
            var r := Turn(db, from, body, random, now);
            r.Replied? ==>
              && r.reply == Advance(c.state, body).reply
              && |r.db.conversations| == |db2.conversations|
              && exists k :: 0 <= k < |db2.conversations| && db2.conversations[k] == c
                   && r.db.conversations[k] == c.(lastMessageAt := now, state := NextState(c.state, body))
                   && forall i :: 0 <= i < |db2.conversations| && i != k ==> r.db.conversations[i] == db2.conversations[i]
  {
    var (db2, c) := Selected(db, from, now);
    var r := Turn(db, from, body, random, now);
    if r.Replied? {
      assert ValidDb(db2);
      var k :| 0 <= k < |db2.conversations| && db2.conversations[k] == c;
      RespondWritesSelectedRow(db2.conversations, k, body, now);
      assert r.db.conversations == Respond(db2.conversations, c, body, now).1;
    }
  }

  /** The session step inside a turn: when a session already carries the
      conversation id as token the sessions are untouched; otherwise one session for `From` in
      state `active` is appended, and the turn throws instead exactly when the
      minted token is already taken. */
  lemma TurnSessionEffect(db: Db, from: string, body: string, random: seq<Token.byte>, now: Time)
    requires |random| == Token.DefaultLength
    ensures var (db2, c) := Selected(db, from, now);
            var r := Turn(db, from, body, random, now);
            && (HasToken(db.sessions.rows, NatToString(c.id)) ==> r.Replied? && r.db.sessions == db.sessions)
            && (!HasToken(db.sessions.rows, NatToString(c.id)) ==>
                  && (r.Replied? <==> !HasToken(db.sessions.rows, Token.GenerateToken(random)))
                  && (r.Replied? ==>
                        && |r.db.sessions.rows| == |db.sessions.rows| + 1
                        && r.db.sessions.rows[..|db.sessions.rows|] == db.sessions.rows
                        && r.db.sessions.rows[|db.sessions.rows|].phone == from
                        && r.db.sessions.rows[|db.sessions.rows|].state == "active"
                        && r.db.sessions.rows[|db.sessions.rows|].token == Token.GenerateToken(random)
                        && PhoneSessionController.IsCreatedRow(r.db.sessions.rows[|db.sessions.rows|],
                             db.sessions.nextId, from, random, now)
                        && r.db.sessions.nextId == db.sessions.nextId + 1
                        && r.db.sessions == PhoneSessionController.CreateSession(db.sessions, from, random, now).value.0))
  {
  }

  /** Every session token the store holds has the length of a minted token. */
  predicate MintedTokens(s: Store) {
    forall i :: 0 <= i < |s.rows| ==> |s.rows[i].token| == 2 * Token.DefaultLength
  }

  /** A conversation id below 10^63 has at most 63 decimal digits, so it is never
      the token of a store whose tokens all have the minted length. */
  lemma LookupByIdMisses(s: Store, id: nat)
    requires MintedTokens(s) && id < Pow10(63)
    ensures !HasToken(s.rows, NatToString(id))
  {
    NatToStringLength(id, 63);
  }

  /** Hence every turn that answers creates one more session: while every token
      is 64 hex digits and conversation ids stay below 10^63, the lookup by
      conversation id never hits, and the store keeps only minted tokens. */
  lemma EveryTurnMintsSession(db: Db, from: string, body: string, random: seq<Token.byte>, now: Time)
    requires |random| == Token.DefaultLength
    requires ValidDb(db) && MintedTokens(db.sessions)
    requires db.nextConversationId < Pow10(63)
    ensures var r := Turn(db, from, body, random, now);
            && (r.Replied? <==> !HasToken(db.sessions.rows, Token.GenerateToken(random)))
            && (r.Replied? ==> |r.db.sessions.rows| == |db.sessions.rows| + 1)
            && MintedTokens(r.db.sessions)
  {
    var (db2, c) := Selected(db, from, now);
    assert c.id < Pow10(63);
    LookupByIdMisses(db.sessions, c.id);
    TurnSessionEffect(db, from, body, random, now);
    var r := Turn(db, from, body, random, now);
    if r.Replied? {
      var n := |db.sessions.rows|;
      var row := r.db.sessions.rows[n];
      forall i | 0 <= i < |r.db.sessions.rows| ensures |r.db.sessions.rows[i].token| == 64 {
        if i < n { assert r.db.sessions.rows[i] == db.sessions.rows[i]; }
      }
    }
  }
}
